=== FILE: README.md ===
# Crash TON round engine — a Dafny model

This project models the logic at the core of the Crash TON game: a server-driven round in which a
multiplier grows from 1x until it "crashes" at a target, while players stake before the round and
cash out during it. It covers four pieces, each written as pure functions over immutable records
with proofs about them:

- **Server ledger and round cycle** (`backend/main.py`). This covers the demo balances and bet
  tables; the `deposit_mock`, `make_bet` and `cashout` handlers with their refusals; the `game_loop`
  cycle cooldown → running → crash → pause; the bounded crash `HISTORY`; and the `history(limit)`
  query. Modules: `Ledger` and `GameLoop`. The growth curve `x_from_t` and the draw
  `pick_crash_target` are in module `Curve`.
- **Demo client round** (`frontend/src/main.js`, module `Demo`). This covers the phases idle →
  running → crashed → idle; the animation-frame curve; manual and automatic cash-out; bet-amount
  and threshold normalisation; the quick-amount buttons; and the 12-slot trend strip. JavaScript's
  Number behaviour for text inputs is in `JsNum`: NaN, infinities, `|0` and `Math.max`/`min`.
- **WebSocket client helpers and reducer** (`frontend/src/app.js`, module `Sync`). This covers
  the rocket-height curve, the http→ws URL rewrite, clock-skew replacement, the countdown
  arithmetic, and the message reducer that drives the buttons, `last` and `lastCrash`.
- **Provably-fair crash point** (`backend/utils_fair.py`, module `Fair`). This covers the
  big-endian u64 read from the digest and the crash point in whole hundredths. In exact
  arithmetic the crash point is max(100, ⌊99·2^64 / u⌋) hundredths, with u = n + 1.

Shared pieces: `Outcomes` (Option and Result), `Fifo` (the bounded FIFO behind both history
buffers) and `PyText` (Python's `str()` of a payload field).

Points where the code's behaviour is easy to misread:

- The server never assigns phase "crashed". It stays "running" through the one-second pause
  after a crash, so cash-outs are still accepted then, at the crash target.
- The client keeps a single socket with a fixed reconnect delay. It adopts whatever skew a
  message implies, however large, and applies every message in arrival order, stale or not.
- The server and the client do not share a wire vocabulary. The server sends `cooldown`,
  `{"type":"crash","x"}` and no `now` field. The client expects `preparing`,
  `crashed`/`crashX` and `now`. Each side is modelled from its own code.
- `frontend/src/app.js` is one closing brace short (78 `{` against 77 `}`), so as written it
  is a syntax error and none of it runs. The model takes the brace-matching reading. In that
  reading the `};` at app.js:295 closes the `msg.type === "phase"` block opened at app.js:210,
  so the tick test at app.js:291-294 sits inside it and can never fire. The indentation
  suggests the brace was meant after app.js:288 instead. Then the tick test is a sibling, and
  ticks move `last`. `Sync.OnMessageIndented` models that reading, and
  `Sync.ReadingsDifferOnTick` shows where the two readings part.

Nondeterminism and foreign primitives are parameters:
- `random.random()` and `Math.random()` draws are reals in [0, 1).
- `math.exp` and `Math.exp` are the function-valued field `Curve.Growth.exp`, or the value an
  animation frame carries.
- HMAC-SHA256 is a function parameter that returns 32 bytes.
- Wall-clock time is an argument of each event.

## Model

| member | source | states |
|---|---|---|
| PyText.PyStr | backend/main.py:136-139 | `str()` of the `tg_id` field is empty only for an explicit empty string. An absent or null id prints as "None", so the missing-id check cannot fire for it. A string prints as itself, a boolean as True/False, and an integer as its decimal text |
| PyText.NoneIdsShareAccount | backend/main.py:136-137 | an absent id, a null id and the literal id "None" all key the same ledger account |
| Fifo.Push | frontend/src/main.js:232 | pushing appends at the newest end and shifts out the oldest entry once the buffer exceeds its capacity; length stays within the capacity |
| Fifo.PushAllIsWindow | backend/main.py:74 | after any sequence of appends the bounded buffer holds exactly the newest `cap` values ever appended, oldest first (strict FIFO eviction) |
| Curve.XFromT | backend/main.py:97-102 | the multiplier at time t never exceeds `max_x` = 100, never exceeds the unclamped two-piece curve, and equals it whenever it is below the clamp |
| Curve.PickCrashTarget | backend/main.py:106-113 | for draws in [0,1) the crash target lies in [1.01, 100); it is below 4 iff the first draw is below 0.70, in [4,10) iff that draw is in [0.70,0.95), and at least 10 iff it is at least 0.95 |
| Curve.PickCrashTargetMonotone | backend/main.py:109-113 | within a band, a larger second draw never gives a smaller target |
| Ledger.Deposit | backend/main.py:134-143 | a deposit succeeds iff the id is non-empty and the amount is > 0. Otherwise it is refused with the matching error and the state is unchanged. On success exactly that user's balance rises by the amount, and the reply is the new balance |
| Ledger.MakeBet | backend/main.py:145-163 | each refusal holds exactly under its condition in the code's order; refusals before the debit change nothing; an admissible bet debits exactly `amount` from that user only; a duplicate in the same round is refused after that debit; an accepted bet records {amount, not cashed, no cash_x} under the current round |
| Ledger.DuplicateBetKeepsDebit | backend/main.py:156-161 | two bets by one user in one round: the second is refused as "already bet this round" yet both stakes have left the balance |
| Ledger.Cashout | backend/main.py:165-184 | cash-out succeeds iff the id is non-empty, the phase is running and an uncashed bet exists for this round. On success the multiplier is min(curve at max(0, elapsed), crash target): at most both, equal to one of them, and ≤ 100. The payout is stake × multiplier, the balance rises by exactly the payout, and the bet is marked cashed at that multiplier. Refusals change nothing |
| Ledger.DetailsDistinguishRefusals | backend/main.py:139-177 | the eight refusals carry eight different `detail` texts, so the reply names the refusal exactly |
| Ledger.CashoutAtMostOnce | backend/main.py:176-181 | after a successful cash-out, any further cash-out by that user in that round is refused and leaves the state unchanged |
| Ledger.CashoutAfterCrashPaysTarget | backend/main.py:178-179 | once the curve has reached the crash target, a cash-out that is still accepted pays exactly stake × crash target |
| Ledger.HistoryQuery | backend/main.py:122-125 | the reply lists history entries newest first; it has min(limit, n) entries for a positive limit, all n for limit 0, and n + limit (at least 0) for a negative limit |
| GameLoop.EnterCooldown | backend/main.py:260-263 | the cycle's top sets phase cooldown and raises the round id by exactly one. It ensures a bet table for the new round, keeping an existing one, and sets the deadline 20 s ahead. Nothing else changes: balances, history, crash target and round start stay |
| GameLoop.EnterRunning | backend/main.py:275-277 | the end of the countdown sets phase running from `now` with a crash target in [1.01, 100) and changes nothing else |
| GameLoop.FinalX | backend/main.py:295 | the recorded crash value is max(crash target, curve at the crash instant): at least each of them, and equal to one of them |
| GameLoop.Crash | backend/main.py:297 | once the crash broadcast is done, the final value is appended to the 50-entry history; the phase stays as it was |
| GameLoop.Advance | backend/main.py:258-300 | one resumption of the loop. At the cycle's top (start-up or after the pause) it is exactly `EnterCooldown` at `now`, with its 20 s window. It raises the round id by one exactly then, never newly assigns phase "crashed", and never touches balances. The countdown changes nothing before the deadline and enters running at or after it. A tick below the target changes nothing. The tick loop breaks exactly when the curve has reached the target; that step changes no state and starts the broadcast of the final value. The end of the broadcast is exactly the history append, and then the pause; nothing else changes, so bets stay cashable |
| GameLoop.BettingWindowLastsUntilDeadline | backend/main.py:266-277 | before the cooldown deadline the loop stays in the countdown with phase cooldown, so bets are still taken; at or after it the round starts running |
| GameLoop.StartInv | backend/main.py:74-95 | the start-up state satisfies the reachable-state invariant |
| GameLoop.StepInv | backend/main.py:134-184 | every loop step and every handler call preserves the invariant: phase never "crashed", history ≤ 50 entries each ≥ 1.01, balances ≥ 0, stakes > 0 |
| GameLoop.RunInv | backend/main.py:248-300 | every state reachable by interleaving the loop with requests satisfies that invariant |
| GameLoop.CycleFacts | backend/main.py:258-297 | a full cycle goes cooldown (deadline 20 s after the cycle's start), running, crash broadcast, pause. While the crash is broadcast the history does not have it yet. The phase is still running in the pause, the round id has risen by exactly one, the newest history entry is ≥ the drawn target, and balances are unchanged |
| GameLoop.CashoutAcceptedWhilePausing | backend/main.py:295-300 | while a crash is broadcast and in the pause after it, a user with an uncashed bet in that round can still cash out |
| GameLoop.HistoryNewestFirst | backend/main.py:124-125 | as soon as a crash's broadcast is done, `history(limit)` for any positive limit starts with that crash's value |
| Fair.DecodeEncode | backend/utils_fair.py:9 | decoding the big-endian encoding of n gives n |
| Fair.EncodeDecode | backend/utils_fair.py:9 | re-encoding decoded bytes gives the same bytes, so the u64 read is one-to-one |
| Fair.UnpackU64 | backend/utils_fair.py:9 | the read succeeds iff the digest has at least 8 bytes; the value is below 2^64 and its 8-byte big-endian encoding is the digest's first 8 bytes |
| Fair.Numerator | backend/utils_fair.py:9-10 | the numerator is the unpacked integer plus one and lies in [1, 2^64] |
| Fair.Uniform | backend/utils_fair.py:10 | r = numerator / 2^64 lies in (0, 1] |
| Fair.CrashHundredths | backend/utils_fair.py:15-16 | the crash point in hundredths is max(100, ⌊99·2^64/u⌋), stated without division: it is ≥ 100; (h + 1)·u exceeds 99·2^64, so h is never below the floor; and above 100, h·u ≤ 99·2^64 (truncation, not rounding) |
| Fair.CrashFromDrawIsHundredths | backend/utils_fair.py:14-16 | the step-by-step real formula max(1.00, int(100·0.99/r)/100) equals max(100, ⌊99·2^64/u⌋)/100 |
| Fair.CrashHundredthsNonIncreasing | backend/utils_fair.py:14-16 | a larger draw never gives a larger crash point |
| Fair.TopDrawIsHouseEdge | backend/utils_fair.py:3 | at r = 1 the raw value is 0.99 (the 1% house edge) and the result clamps to 1.00 |
| Fair.CrashPoint | backend/utils_fair.py:12-16 | `crash_point` is ≥ 1.00, a whole number of hundredths, and equals CrashHundredths of the HMAC digest's first eight bytes plus one, over 100 |
| JsNum.ToInt32 | frontend/src/main.js:246 | the bitwise-or with 0 (ToInt32) gives a signed 32-bit integer; NaN and infinities give 0; a finite value gives its truncation modulo 2^32, and exactly its truncation when that fits |
| Demo.Reset | frontend/src/main.js:181-188 | reset sets phase idle, multiplier 1.00 and no crash value. It changes nothing else: the bet flag, amount, threshold, balance, trends and every scheduled loop or timer survive |
| Demo.PushTrend | frontend/src/main.js:231-232 | the trend strip appends at the end, shifts the front once past 12, and stays ≤ 12 long |
| Demo.StartRound | frontend/src/main.js:262-266 | starting a round sets phase running, schedules one more curve loop, and sets the crash target to max(1.01, x): at least both, equal to one. It pushes x onto the trends and changes nothing else (multiplier, bet and balance stay) |
| Demo.MaybeAutoDemo | frontend/src/main.js:290-299 | the autoplay timer starts a round crashing at 1 + 6.5r iff autoplay is on and the phase is idle; otherwise it changes nothing |
| Demo.NormaliseAmount | frontend/src/main.js:246 | the bet amount is ≥ `minBet`, and equals the field's 32-bit integer value whenever that is ≥ `minBet` |
| Demo.NormaliseAutoCash | frontend/src/main.js:247-249 | the threshold is set iff the field is a finite number ≥ 1.01, and is then that number; otherwise it is null |
| Demo.QuickAmount | frontend/src/main.js:235-243 | "min" writes `minBet` and "max" writes `maxBet`. For a finite amount a, "half" writes max(`minBet`, ⌊a/2⌋): a whole number, at least both, equal to one. "2x" writes min(`maxBet`, 2a): at most both, equal to one. NaN stays NaN |
| Demo.QuickAmountIsBetAmount | frontend/src/main.js:235-246 | what "min", "max" and a finite "half" write is read back by the bet button unchanged, when the limits and the field are in the 32-bit range |
| Demo.DoCashout | frontend/src/main.js:273-286 | cash-out does nothing unless the phase is running and a bet is held; it then credits exactly ⌊bet × multiplier⌋ and clears the bet |
| Demo.CashoutOnce | frontend/src/main.js:274-282 | a second cash-out (manual or auto) after the first changes nothing |
| Demo.Frame | frontend/src/main.js:189-200 | each callback of a scheduled `step` loop sets the multiplier to max(1, g) while running. That loop ends exactly when the auto cash-out condition holds (bet held, threshold set, multiplier ≥ threshold), and the callback then cashes out. A loop also ends once the phase is not running. Other loops are unaffected |
| Demo.CrashFrame | frontend/src/main.js:203-218 | the crash loop crashes exactly when the phase is running and the multiplier has reached the target, and then records that multiplier and arms the reset timer. It touches only the phase, the crash value, its own watch and the reset timer; bet, threshold, balance, trends and curve loops stay |
| Demo.BetClick | frontend/src/main.js:245-271 | the bet button stores the normalised amount and threshold and sets the bet flag in any phase. It starts a round exactly when the phase is idle: the state is then `StartRound` applied after those three updates, with a crash target of max(1.01, 1 + 10r) and 1 + 10r pushed onto the trends. Otherwise only those three fields change |
| Demo.BootInv | frontend/src/main.js:5-18 | the state after load satisfies the client invariant |
| Demo.StepInv | frontend/src/main.js:180-299 | every event preserves the invariant: never "betting", multiplier ≥ 1, amount ≥ `minBet`, threshold null or ≥ 1.01, trends ≤ 12, crash value set iff crashed, crash target ≥ 1.01 |
| Demo.RunInv | frontend/src/main.js:180-304 | every reachable state satisfies that invariant |
| Demo.FrozenRoundStaysRunning | frontend/src/main.js:193-216 | with no curve loop left and the multiplier below the crash target, no event changes the phase or the multiplier again |
| Demo.AutoCashoutFreezesRound | frontend/src/main.js:196-197 | with a single curve loop, an auto cash-out at a threshold below the crash target ends it there, and the round then stays running forever |
| Demo.StaleLoopSurvivesRestart | frontend/src/main.js:192-212 | a curve callback still held back when a round crashes survives the reset and the next autoplay round, so two curve loops are then scheduled |
| Demo.SecondLoopStillCrashes | frontend/src/main.js:192-216 | with two curve loops, an auto cash-out ends only one; the other raises the multiplier to the target and the round crashes there |
| Sync.HeightPct | frontend/src/app.js:4-12 | the rocket height lies in [0,1], is 0 for x ≤ 1, 0.35 at x = 2 and 1 for x ≥ 50 |
| Sync.PiecesMeetAtTwo | frontend/src/app.js:7-11 | both pieces of the height curve give 0.35 at 2x, so the curve is continuous there |
| Sync.HeightPctMonotone | frontend/src/app.js:5-11 | the height never decreases as the multiplier grows |
| Sync.ToWs | frontend/src/app.js:21-25 | "https://" becomes "wss://" and "http://" becomes "ws://", keeping the rest; any other string is unchanged |
| Sync.ToWsIdempotent | frontend/src/app.js:21-25 | rewriting an already rewritten URL changes nothing |
| Sync.UpdateSkew | frontend/src/app.js:206-208 | a numeric `now` replaces the skew with now − local time, without blending; other messages keep it |
| Sync.SkewFollowsLatestNow | frontend/src/app.js:206-208 | after any events the skew is exactly server `now` minus local receive time of the latest message carrying a numeric `now`, or the starting skew if none did |
| Sync.OnOpen | frontend/src/app.js:196-200 | opening the socket disables both buttons |
| Sync.OnMessage | frontend/src/app.js:202-295 | in the brace-matching reading: "preparing" enables bet and disables cash; "running" does the reverse and resets `last` to running at 1; "crashed" disables both, changes `lastCrash` only for a numeric `crashX` and sets `last` to preparing; every other message changes only the skew |
| Sync.TickNeverReachesLast | frontend/src/app.js:291-294 | in the brace-matching reading a tick message never changes `last`, because its test sits inside the "phase" branch |
| Sync.OnMessageIndented | frontend/src/app.js:288-295 | in the indentation reading, a tick with a numeric x sets `last` to running at x; every other message acts as in `Sync.OnMessage` |
| Sync.ReadingsDifferOnTick | frontend/src/app.js:291-294 | a tick at 2x leaves the rocket at height 0 in the brace-matching reading and lifts it to 0.35 in the indentation reading |
| Sync.CountdownFrame | frontend/src/app.js:179-188 | the window is max(500 ms, end − start). Time left is ≥ 0, and it is 0 exactly when server time has reached the end, which is also exactly when the interval stops. Shown seconds are within 50 ms of the time left. The bar is 100 × elapsed / window, clamped to [0,100]: 0 up to the start, 100 from start + window |
| Sync.CountdownProgresses | frontend/src/app.js:179-183 | as time passes the bar never moves back and the time left never grows |
| Sync.OnCountdownTimer | frontend/src/app.js:188 | the interval is cleared exactly once the server-time end is reached; with no interval nothing changes |
| Sync.RunInv | frontend/src/app.js:151-295 | in the brace-matching reading, `last.x` is 1 in every reachable view, and the bet and cash buttons are never both enabled |
| Sync.RocketStaysOnFloor | frontend/src/app.js:160-170 | in the brace-matching reading, hence the running animation always computes height 0 for the rocket |
| Sync.SkewExample | frontend/src/app.js:179 | a server `now` of 100000 read at local 95000 gives skew +5000, and countdown frames then run on local time + 5000 |

## Left out

- Transport is I/O and is not modelled. This covers `broadcast`, the `/ws` and `/stream`
  sockets, the heartbeat-only `/sse`, and the client's fixed 1.5 s reconnect of one socket. It
  also covers `fetch`/`post` calls and `loadHistory`/`refreshBalance`. The server's `tick`,
  `cooldown` and `crash` broadcasts only carry display data, so they are left out too.
- Presentation is not modelled: DOM text and styles, Phaser and canvas drawing,
  `computeGraphHeight`, `renderTrends`, TonConnect and Telegram mounting, button styling, and
  the phase labels set by `setPhase`.
- `frontend/src/App.jsx` and `bot/bot.py` are not part of this model: they are UI wiring and bot
  handlers. The same goes for static routes, CORS, `/health` and the `_config.js` route.
- Timing is not modelled. asyncio sleeps, `requestAnimationFrame`, `setTimeout` and
  `setInterval` become events that the model may deliver in any order. The demo client counts
  its scheduled curve `step` callbacks. These all measure from the shared `startTs`, so one
  frame value serves them all. How long frames are held back (a hidden tab) is not modelled.
- Python floats and JavaScript numbers are exact reals, so IEEE-754 rounding is not modelled.
  Neither are NaN or infinite amounts reaching the server. Only the demo's text inputs keep
  NaN and infinities.
- A server amount that `float()` cannot convert raises an error (HTTP 500) in the code. In
  the model an amount is a number or absent.
- app.js fields `startedAt`/`endsAt` are modelled as numbers only. The code would also accept
  truthy non-numbers there.
- GameLoop.FinalX: the value is taken at the same instant as the tick loop's break test. The
  code reads the clock a second time at main.py:295, but there is no `await` in between, so no
  handler can run there. The model does keep the `await broadcast` of main.py:296 before the
  append of main.py:297 as a separate step.
- Sync.RunInv, Sync.RocketStaysOnFloor: these hold only in the brace-matching reading of the
  unbalanced app.js. In the indentation reading ticks set `last.x`, as
  `Sync.ReadingsDifferOnTick` shows.
- PyText.PyStr: `JsonValue` has no float, list or object case. A float id such as 12.0 would key
  its own account "12.0". The `str()` of those values is never empty, so the missing-id refusal
  is unaffected.
- Curve.XFromT: only the clamp is stated, because `math.exp` is uninterpreted. How the curve
  grows is not modelled.
- Fair.CrashPoint: stated in exact arithmetic. The `round(..., 2)` of the float result is
  exactly the whole number of hundredths only up to floating-point rounding.
- The demo's commented-out backend calls (`postBet`, `postCashout`) and their `catch` branches
  are not modelled, because nothing on the live path can throw. The starting balance, which
  `fetchBalance` would supply, is a parameter of `Demo.Boot`. The fetch is asynchronous, and
  its `setBalance` can land after a cash-out and overwrite the credited winnings. That late
  overwrite is not modelled.
- The demo buttons' enabled and disabled states (main.js:186-187, 211, 252, 260, 276) are not
  modelled. `BetPressed` and `CashoutPressed` may arrive in any state, so the model allows more
  than the page does, and its invariants cover the page's behaviour too.
- `get_balance` is only a read of `balances.get(tg_id, 0.0)`. It appears as `Ledger.BalanceOf`,
  with no handler of its own.

=== FILE: curve.dfy ===
/** The server's multiplier curve and crash-target draw (`GameState.x_from_t`, `pick_crash_target`).

    `math.exp` is a foreign primitive and stays uninterpreted: it is a field of `Growth`. The rates
    a = ln 2 / 10 and b = ln 50 / 20 are irrational and only ever appear as arguments of exp, so
    they are fields as well. `random.random()` draws become parameters in [0, 1). */
module Curve {

  /** `GameState.max_x`. */
  const MaxX: real := 100.0

  /** Lower bound of the lowest crash-target band. */
  const MinTarget: real := 1.01

  datatype Growth = Growth(exp: real -> real, a: real, b: real)

  /** The property of `math.exp` the ledger relies on: it is positive everywhere. */
  ghost predicate PositiveExp(g: Growth) {
    forall u :: g.exp(u) > 0.0
  }

  /** The two-piece curve before clamping: exp(a t) up to 10 s, then 2 exp(b (t - 10)). */
  function Unclamped(g: Growth, t: real): real {
    if t <= 10.0 then g.exp(g.a * t) else 2.0 * g.exp(g.b * (t - 10.0))
  }

  /** `x_from_t`: the curve clamped at `max_x`; it never exceeds 100 and is the curve value
      whenever that is below the clamp. */
  function XFromT(g: Growth, t: real): (x: real)
    ensures x <= MaxX
    ensures x <= Unclamped(g, t)
    ensures x == MaxX || x == Unclamped(g, t)
  {
    var raw := Unclamped(g, t);
    if MaxX <= raw then MaxX else raw
  }

  /** With a positive exp the clamped curve is positive, so every payout is positive. */
  lemma XFromTPositive(g: Growth, t: real)
    requires PositiveExp(g)
    ensures XFromT(g, t) > 0.0
  {
    if t <= 10.0 {
      assert g.exp(g.a * t) > 0.0;
    } else {
      assert g.exp(g.b * (t - 10.0)) > 0.0;
    }
  }

  /** A `random.random()` draw. */
  predicate IsDraw(r: real) {
    0.0 <= r < 1.0
  }

  /** `pick_crash_target(r, u)`: `r` chooses the band (70% low, 25% middle, 5% high) and `u`
      the position inside it. The target lies in [1.01, 100) and its band identifies `r`'s band. */
  function PickCrashTarget(r: real, u: real): (x: real)
    requires IsDraw(r) && IsDraw(u)
    ensures MinTarget <= x < MaxX
    ensures x < 4.0 <==> r < 0.70
    ensures 4.0 <= x < 10.0 <==> 0.70 <= r < 0.95
    ensures 10.0 <= x <==> 0.95 <= r
  {
    if r < 0.70 then 1.01 + u * (4.0 - 1.01)
    else if r < 0.95 then 4.0 + u * (10.0 - 4.0)
    else 10.0 + u * (MaxX - 10.0)
  }

  /** Inside one band a larger second draw gives a larger target. */
  lemma PickCrashTargetMonotone(r: real, u: real, u': real)
    requires IsDraw(r) && IsDraw(u) && IsDraw(u') && u <= u'
    ensures PickCrashTarget(r, u) <= PickCrashTarget(r, u')
  {
  }
}

=== FILE: demo.dfy ===
/** The demo client's local round (`frontend/src/main.js`): phases idle -> running -> crashed ->
    idle, the animation-frame curve, auto and manual cash-out, bet-input normalisation, the
    quick-amount buttons, and the 12-slot trend strip.

    Time, `Math.exp` and `Math.random` are parameters of the events: an animation frame carries
    the value exp(k dt / 16.6667) it computes, and each round start carries its random draw. The
    `requestAnimationFrame` loops and the two timers are events that may arrive in any order; the
    state records which of them are currently scheduled. A `step` loop of the curve ends only when
    it runs and sees the phase is no longer running, so while frames are held back (a hidden tab)
    a stale `step` can outlive its round and run next to the one the following round schedules:
    the state therefore counts the scheduled `step` callbacks. */
module Demo {
  import opened Outcomes
  import opened JsNum
  import Fifo
  import Curve

  /** The values the code's comment lists for `state.phase`. */
  datatype Phase = Idle | Betting | Running | Crashed

  datatype State = State(
    phase: Phase,
    currentX: real,
    crashedAt: Option<real>,
    hasBet: bool,
    betAmount: int,
    autoCash: Option<real>,
    balance: real,
    minBet: int,
    maxBet: int,
    autoplayDemo: bool,
    trends: seq<real>,
    curveLoops: nat,          // how many `step` callbacks of `startCurve` are scheduled
    crashWatch: Option<real>, // the target of the scheduled `simulateCrashAt` loop, if any
    resetPending: bool)       // the 1600 ms post-crash timer is set

  const TrendCap: nat := 12
  /** The smallest auto cash-out threshold the bet button accepts. */
  const MinAutoCash: real := 1.01
  /** The floor `simulateCrashAt` puts under a round's crash target. */
  const CrashFloor: real := 1.01
  const InitialTrends: seq<real> := [3.87, 12.19, 1.27, 2.73, 1.86, 3.02, 1.22, 1.55, 2.03, 4.83, 1.06, 4.12]

  /** `reset()`: back to idle at 1.00x with no crash value. Nothing else is touched; in
      particular a bet that was never cashed out survives into the next round, and so does any
      animation loop still scheduled. */
  function Reset(s: State): (s': State)
    ensures s'.phase == Idle && s'.currentX == 1.0 && s'.crashedAt.None?
    ensures s'.hasBet == s.hasBet && s'.balance == s.balance && s'.trends == s.trends
    ensures s'.betAmount == s.betAmount && s'.autoCash == s.autoCash
    ensures s'.curveLoops == s.curveLoops && s'.crashWatch == s.crashWatch && s'.resetPending == s.resetPending
    ensures s' == s.(phase := s'.phase, currentX := s'.currentX, crashedAt := s'.crashedAt)
  {
    s.(phase := Idle, currentX := 1.0, crashedAt := None)
  }

  /** The state after the script loaded and called `reset()`; the balance is whatever the
      balance request returned. */
  function Boot(balance: real): State {
    Reset(State(Idle, 1.0, None, false, 100, None, balance, 10, 100000, true, InitialTrends, 0, None, false))
  }

  /** `pushTrend(x)`: append, then shift once if longer than 12. */
  function PushTrend(trends: seq<real>, x: real): (r: seq<real>)
    ensures |trends| <= TrendCap ==> |r| <= TrendCap
    ensures 0 < |r| && r[|r| - 1] == x
    ensures |trends| >= TrendCap ==> r == trends[1..] + [x]
    ensures |trends| < TrendCap ==> r == trends + [x]
  {
    Fifo.Push(trends, TrendCap, x)
  }

  /** `startCurve(); simulateCrashAt(x); pushTrend(x)`: phase running, one more curve loop
      scheduled, a crash loop watching max(1.01, x), and x joins the trend strip. The multiplier,
      the bet and the balance are left as they are. */
  function StartRound(s: State, x: real): (s': State)
    ensures s'.phase == Running && s'.curveLoops == s.curveLoops + 1
    ensures s'.crashWatch.Some? && s'.crashWatch.value >= CrashFloor && s'.crashWatch.value >= x
    ensures s'.crashWatch.value == x || s'.crashWatch.value == CrashFloor
    ensures s'.trends == PushTrend(s.trends, x)
    ensures s' == s.(phase := Running, curveLoops := s'.curveLoops, crashWatch := s'.crashWatch, trends := s'.trends)
  {
    var target := if CrashFloor >= x then CrashFloor else x;
    s.(phase := Running, curveLoops := s.curveLoops + 1, crashWatch := Some(target), trends := PushTrend(s.trends, x))
  }

  /** `maybeAutoDemo()`: with autoplay on and the phase idle, starts a showcase round crashing
      at 1 + 6.5 r; otherwise does nothing. */
  function MaybeAutoDemo(s: State, r: real): (s': State)
    requires Curve.IsDraw(r)
    ensures s.autoplayDemo && s.phase == Idle ==> s' == StartRound(s, 1.0 + r * 6.5)
    ensures s'.phase != s.phase ==> s.phase == Idle && s.autoplayDemo
    ensures s'.phase == s.phase ==> s' == s
  {
    if !s.autoplayDemo then s
    else if s.phase == Idle then StartRound(s, 1.0 + r * 6.5)
    else s
  }

  /** The bet amount the bet button reads: `Math.max(minBet, Number(field) | 0)`. It is at least
      `minBet`, and it is the field's 32-bit integer value whenever that is at least `minBet`. */
  function NormaliseAmount(minBet: int, field: Num): (amount: int)
    ensures amount >= minBet
    ensures amount == minBet || amount == ToInt32(field)
    ensures ToInt32(field) >= minBet ==> amount == ToInt32(field)
  {
    var n := ToInt32(field);
    if minBet >= n then minBet else n
  }

  /** The auto-cash threshold: the field's value when it is a finite number of at least 1.01,
      and null otherwise. */
  function NormaliseAutoCash(field: Num): (a: Option<real>)
    ensures a.Some? <==> field.Fin? && field.v >= MinAutoCash
    ensures a.Some? ==> a.value == field.v
  {
    if field.Fin? && field.v >= MinAutoCash then Some(field.v) else None
  }

  /** The quick-amount buttons, by their `data-q`. */
  datatype Quick = QuickMin | QuickHalf | QuickDouble | QuickMax | QuickOther

  /** What a quick button writes into the amount field, given the field's current number (or
      `minBet` when it is empty); `None` when the button writes nothing. "half" never goes below
      `minBet` and "2x" never above `maxBet`, except that a NaN field stays NaN. */
  function QuickAmount(minBet: int, maxBet: int, current: Num, q: Quick): (r: Option<Num>)
    ensures q == QuickMin ==> r == Some(Fin(minBet as real))
    ensures q == QuickMax ==> r == Some(Fin(maxBet as real))
    ensures q == QuickOther ==> r.None?
    ensures q == QuickHalf ==> r.Some? && (r.value.NaN? <==> current.NaN?)
    ensures q == QuickHalf && !current.NaN? ==> Le(Fin(minBet as real), r.value)
    ensures q == QuickHalf && current.Fin? ==>
      && r.value.Fin? && r.value.v == r.value.v.Floor as real
      && current.v < r.value.v + r.value.v + 2.0
      && (r.value.v == minBet as real || r.value.v + r.value.v <= current.v)
    ensures q == QuickDouble ==> r.Some? && (r.value.NaN? <==> current.NaN?)
    ensures q == QuickDouble && !current.NaN? ==> Le(r.value, Fin(maxBet as real))
    ensures q == QuickDouble && current.Fin? ==>
      && r.value.Fin? && r.value.v <= current.v + current.v
      && (r.value.v == maxBet as real || r.value.v == current.v + current.v)
  {
    match q
    case QuickMin => Some(Fin(minBet as real))
    case QuickHalf => Some(Max(Fin(minBet as real), Floor(Half(current))))
    case QuickDouble => Some(Min(Fin(maxBet as real), Double(current)))
    case QuickMax => Some(Fin(maxBet as real))
    case QuickOther => None
  }

  /** The amount a cash-out credits: `Math.floor(betAmount * currentX)`. */
  function Won(s: State): int {
    (s.betAmount as real * s.currentX).Floor
  }

  /** `doCashout()`: only in phase running with a bet; it then credits floor(bet x multiplier)
      and clears the bet, so it cannot pay twice. In every other case nothing changes. */
  function DoCashout(s: State): (s': State)
    ensures s.phase != Running || !s.hasBet ==> s' == s
    ensures s.phase == Running && s.hasBet ==>
      && !s'.hasBet
      && s'.balance == s.balance + Won(s) as real
      && s'.balance - s'.betAmount as real * s'.currentX <= s.balance < s'.balance - s'.betAmount as real * s'.currentX + 1.0
      && s' == s.(balance := s'.balance, hasBet := false)
  {
    if s.phase != Running || !s.hasBet then s
    else s.(balance := s.balance + Won(s) as real, hasBet := false)
  }

  /** A manual click after a successful cash-out, or an auto cash-out racing a click, pays nothing. */
  lemma CashoutOnce(s: State)
    ensures DoCashout(DoCashout(s)) == DoCashout(s)
  {
  }

  /** The auto cash-out condition checked on each frame. */
  predicate AutoCashDue(s: State) {
    s.hasBet && Truthy(s.autoCash) && s.currentX >= s.autoCash.value
  }

  /** One callback of one of the scheduled `step` loops, with g = exp(k dt / 16.6667); every loop
      measures dt from the same `startTs`, so all of them compute the same g at a given instant.
      While running, the multiplier becomes max(1, g); if the auto cash-out condition then holds,
      the callback cashes out and does NOT schedule another, so that loop ends. Once the phase is
      no longer running, the loop ends too. */
  function Frame(s: State, g: real): (s': State)
    ensures s.curveLoops == 0 ==> s' == s
    ensures s.curveLoops > 0 && s.phase != Running ==> s' == s.(curveLoops := s.curveLoops - 1)
    ensures s.curveLoops > 0 && s.phase == Running ==>
      && s'.phase == Running
      && s'.currentX >= 1.0 && s'.currentX >= g && (s'.currentX == 1.0 || s'.currentX == g)
      && (s'.curveLoops < s.curveLoops <==> AutoCashDue(s.(currentX := s'.currentX)))
      && (s'.curveLoops == s.curveLoops ==> s' == s.(currentX := s'.currentX))
      && (s'.curveLoops < s.curveLoops ==> s' == DoCashout(s.(currentX := s'.currentX)).(curveLoops := s.curveLoops - 1))
  {
    if s.curveLoops == 0 then s
    else if s.phase != Running then s.(curveLoops := s.curveLoops - 1)
    else
      var s1 := s.(currentX := if 1.0 >= g then 1.0 else g);
      if AutoCashDue(s1) then DoCashout(s1).(curveLoops := s.curveLoops - 1) else s1
  }

  /** One frame of the `simulateCrashAt` loop. It crashes exactly when the phase is running and
      the multiplier has reached the target, recording that multiplier and arming the
      post-crash timer; it stops when the phase is no longer running. */
  function CrashFrame(s: State): (s': State)
    ensures s'.currentX == s.currentX && s'.balance == s.balance && s'.hasBet == s.hasBet
    ensures (s'.phase == Crashed && s.phase != Crashed) <==>
      s.crashWatch.Some? && s.phase == Running && s.currentX >= s.crashWatch.value
    ensures s'.phase != s.phase ==> s'.phase == Crashed && s'.crashedAt == Some(s.currentX) && s'.resetPending
    ensures s.crashWatch.Some? && s.phase == Running && s.currentX < s.crashWatch.value ==> s' == s
    ensures s' == s.(phase := s'.phase, crashedAt := s'.crashedAt, crashWatch := s'.crashWatch, resetPending := s'.resetPending)
  {
    match s.crashWatch
    case None => s
    case Some(target) =>
      if s.phase != Running then s.(crashWatch := None)
      else if s.currentX >= target then
        s.(phase := Crashed, crashedAt := Some(s.currentX), crashWatch := None, resetPending := true)
      else s
  }

  /** The bet button: normalises the amount and threshold, marks a bet as placed (in ANY phase),
      and starts a round crashing at 1 + 10 r only when the phase is idle. */
  function BetClick(s: State, amountField: Num, autoField: Num, r: real): (s': State)
    requires Curve.IsDraw(r)
    ensures s'.hasBet
    ensures s'.betAmount == NormaliseAmount(s.minBet, amountField)
    ensures s'.autoCash == NormaliseAutoCash(autoField)
    ensures s'.phase != s.phase <==> s.phase == Idle
    ensures s.phase == Idle ==>
      && s'.phase == Running && s'.trends == PushTrend(s.trends, 1.0 + r * 10.0)
      && s'.curveLoops == s.curveLoops + 1
      && s'.crashWatch.Some? && s'.crashWatch.value >= 1.0 + r * 10.0 && s'.crashWatch.value >= CrashFloor
      && s' == StartRound(s.(betAmount := s'.betAmount, autoCash := s'.autoCash, hasBet := true), 1.0 + r * 10.0)
      && (s'.crashWatch.value == 1.0 + r * 10.0 || s'.crashWatch.value == CrashFloor)
    ensures s.phase != Idle ==> s' == s.(betAmount := s'.betAmount, autoCash := s'.autoCash, hasBet := true)
    ensures s'.balance == s.balance && s'.currentX == s.currentX
  {
    var s1 := s.(betAmount := NormaliseAmount(s.minBet, amountField),
                 autoCash := NormaliseAutoCash(autoField),
                 hasBet := true);
    if s1.phase == Idle then StartRound(s1, 1.0 + r * 10.0) else s1
  }

  /** Everything that can happen in the demo client. */
  datatype Event =
    | BetPressed(amountField: Num, autoField: Num, betDraw: real)
    | CashoutPressed
    | CurveFrame(growth: real)
    | CrashCheckFrame
    | PostCrashTimer(resetDraw: real)
    | BootTimer(bootDraw: real)

  predicate EventOk(e: Event) {
    match e
    case BetPressed(_, _, r) => Curve.IsDraw(r)
    case PostCrashTimer(r) => Curve.IsDraw(r)
    case BootTimer(r) => Curve.IsDraw(r)
    case _ => true
  }

  function Step(s: State, e: Event): State
    requires EventOk(e)
  {
    match e
    case BetPressed(a, c, r) => BetClick(s, a, c, r)
    case CashoutPressed => DoCashout(s)
    case CurveFrame(g) => Frame(s, g)
    case CrashCheckFrame => CrashFrame(s)
    case PostCrashTimer(r) => if s.resetPending then MaybeAutoDemo(Reset(s).(resetPending := false), r) else s
    case BootTimer(r) => MaybeAutoDemo(s, r)
  }

  function Run(s: State, es: seq<Event>): State
    requires forall i :: 0 <= i < |es| ==> EventOk(es[i])
    decreases |es|
  {
    if es == [] then s else Run(Step(s, es[0]), es[1..])
  }

  /** What holds in every reachable state: phase "betting" never occurs; the multiplier is at
      least 1; the normalised inputs keep their bounds; the trend strip holds at most 12 values; a
      crash value is recorded exactly while crashed (and is at least 1.01); the post-crash timer is
      armed exactly while crashed; the crash loop runs only while running, with a target >= 1.01. */
  ghost predicate Inv(s: State) {
    && s.phase != Betting
    && s.currentX >= 1.0
    && s.betAmount >= s.minBet
    && (s.autoCash.Some? ==> s.autoCash.value >= MinAutoCash)
    && |s.trends| <= TrendCap
    && (s.crashWatch.Some? ==> s.phase == Running && s.crashWatch.value >= CrashFloor)
    && (s.crashedAt.Some? <==> s.phase == Crashed)
    && (s.crashedAt.Some? ==> s.crashedAt.value >= CrashFloor)
    && (s.resetPending <==> s.phase == Crashed)
  }

  lemma BootInv(balance: real)
    ensures Inv(Boot(balance))
  {
  }

  lemma StepInv(s: State, e: Event)
    requires Inv(s) && EventOk(e)
    ensures Inv(Step(s, e))
  {
  }

  lemma {:induction false} RunInv(s: State, es: seq<Event>)
    requires Inv(s)
    requires forall i :: 0 <= i < |es| ==> EventOk(es[i])
    ensures Inv(Run(s, es))
    decreases |es|
  {
    if es != [] {
      StepInv(s, es[0]);
      RunInv(Step(s, es[0]), es[1..]);
    }
  }

  /** A running round with no curve loop left while the multiplier is still below the crash
      target stays running at that multiplier whatever happens next: no event moves it on. */
  lemma {:induction false} FrozenRoundStaysRunning(s: State, es: seq<Event>)
    requires s.phase == Running && s.curveLoops == 0 && !s.resetPending
    requires s.crashWatch.Some? && s.currentX < s.crashWatch.value
    requires forall i :: 0 <= i < |es| ==> EventOk(es[i])
    ensures Run(s, es).phase == Running
    ensures Run(s, es).currentX == s.currentX
    decreases |es|
  {
    if es != [] {
      var s1 := Step(s, es[0]);
      assert s1.phase == Running && s1.curveLoops == 0 && !s1.resetPending;
      assert s1.crashWatch == s.crashWatch && s1.currentX == s.currentX;
      FrozenRoundStaysRunning(s1, es[1..]);
    }
  }

  /** With a single curve loop scheduled, an auto cash-out at a threshold below the round's crash
      target stops the curve below the target, so the round never crashes and the client stays in
      phase running for good. */
  lemma AutoCashoutFreezesRound(s: State, g: real, es: seq<Event>)
    requires Inv(s) && s.phase == Running && s.curveLoops == 1 && s.crashWatch.Some?
    requires s.hasBet && s.autoCash.Some?
    requires s.autoCash.value <= g < s.crashWatch.value
    requires forall i :: 0 <= i < |es| ==> EventOk(es[i])
    ensures Frame(s, g).curveLoops == 0 && Frame(s, g).currentX == g
    ensures Run(Frame(s, g), es).phase == Running
    ensures Run(Frame(s, g), es).currentX == g
  {
    FrozenRoundStaysRunning(Frame(s, g), es);
  }

  /** A `step` callback still held back when a round crashes survives the post-crash timer: the
      reset and the next autoplay round leave it scheduled next to the new round's own loop. */
  lemma StaleLoopSurvivesRestart(s: State, r: real)
    requires Inv(s) && s.phase == Crashed && s.curveLoops == 1 && s.autoplayDemo
    requires Curve.IsDraw(r)
    ensures Step(s, PostCrashTimer(r)).phase == Running
    ensures Step(s, PostCrashTimer(r)).curveLoops == 2
  {
  }

  /** With two curve loops scheduled, an auto cash-out ends only one of them: the other keeps
      raising the multiplier, and the round crashes once it reaches the target. */
  lemma SecondLoopStillCrashes(s: State, g: real, g2: real)
    requires Inv(s) && s.phase == Running && s.curveLoops == 2 && s.crashWatch.Some?
    requires s.hasBet && s.autoCash.Some?
    requires s.autoCash.value <= g < s.crashWatch.value <= g2
    ensures Frame(s, g).curveLoops == 1 && !Frame(s, g).hasBet
    ensures Frame(Frame(s, g), g2).currentX == g2
    ensures CrashFrame(Frame(Frame(s, g), g2)).phase == Crashed
    ensures CrashFrame(Frame(Frame(s, g), g2)).crashedAt == Some(g2)
  {
  }

  /** What "min", "max" and "half" write into the amount field is an amount the bet button
      takes unchanged, as long as the bet limits and the field are within the 32-bit range the
      button's `| 0` keeps. */
  lemma QuickAmountIsBetAmount(minBet: int, maxBet: int, current: Num, q: Quick)
    requires -Two31 <= minBet <= maxBet < Two31
    requires q == QuickMin || q == QuickMax || q == QuickHalf
    requires q == QuickHalf ==> current.Fin? && 0.0 <= current.v < Two32 as real
    ensures QuickAmount(minBet, maxBet, current, q).Some?
    ensures
      var written := QuickAmount(minBet, maxBet, current, q).value;
      written.Fin? && NormaliseAmount(minBet, written) as real == written.v
  {
    var written := QuickAmount(minBet, maxBet, current, q).value;
    assert written.Fin? && written.v == written.v.Floor as real;
    assert Trunc(written.v) == written.v.Floor;
  }
}

=== FILE: fair.dfy ===
/** The provably-fair crash point (`hash_to_uniform01`, `crash_point`) in exact arithmetic.

    HMAC-SHA256 is a foreign primitive: it is a parameter returning 32 bytes. Floating-point
    rounding is not modelled; the formula is evaluated over the reals, which is what the source
    computes up to IEEE-754 rounding. */
module Fair {
  import opened Outcomes
  import PyText

  type byte = b: int | 0 <= b < 256

  /** What `hmac.new(key, msg, sha256).digest()` returns: 32 bytes. */
  type Digest = d: seq<byte> | |d| == 32 witness seq(32, _ => 0)

  const Two64: nat := 0x1_0000_0000_0000_0000

  /** `HOUSE_EDGE`. */
  const HouseEdge: real := 0.01

  function Pow256(k: nat): (p: nat)
    ensures p >= 1
  {
    if k == 0 then 1 else 256 * Pow256(k - 1)
  }

  /** The unsigned integer a byte string spells with its most significant byte first. */
  function BigEndian(bs: seq<byte>): (n: nat)
    ensures n < Pow256(|bs|)
  {
    if bs == [] then 0 else BigEndian(bs[..|bs| - 1]) * 256 + bs[|bs| - 1]
  }

  /** The k-byte big-endian encoding of n. */
  function ToBigEndian(n: nat, k: nat): (bs: seq<byte>)
    requires n < Pow256(k)
    ensures |bs| == k
  {
    if k == 0 then [] else ToBigEndian(n / 256, k - 1) + [n % 256]
  }

  /** Decoding an encoding gives the number back. */
  lemma {:induction false} DecodeEncode(n: nat, k: nat)
    requires n < Pow256(k)
    ensures BigEndian(ToBigEndian(n, k)) == n
  {
    if k > 0 {
      var bs := ToBigEndian(n, k);
      DecodeEncode(n / 256, k - 1);
      assert bs[..|bs| - 1] == ToBigEndian(n / 256, k - 1);
    }
  }

  /** Encoding a decoded byte string gives the bytes back, so the decoding is one-to-one. */
  lemma {:induction false} EncodeDecode(bs: seq<byte>)
    ensures ToBigEndian(BigEndian(bs), |bs|) == bs
  {
    if bs != [] {
      var init := bs[..|bs| - 1];
      EncodeDecode(init);
      assert BigEndian(bs) / 256 == BigEndian(init);
      assert BigEndian(bs) % 256 == bs[|bs| - 1];
      assert bs == init + [bs[|bs| - 1]];
    }
  }

  lemma Pow256Eight()
    ensures Pow256(8) == Two64
  {
  }

  /** `struct.unpack(">Q", digest[:8])[0]`; a digest shorter than 8 bytes makes `struct` raise. */
  function UnpackU64(digest: seq<byte>): (r: Option<nat>)
    ensures r.Some? <==> |digest| >= 8
    ensures r.Some? ==> r.value < Two64 && ToBigEndian(r.value, 8) == digest[..8]
  {
    Pow256Eight();
    if |digest| < 8 then None
    else
      EncodeDecode(digest[..8]);
      Some(BigEndian(digest[..8]))
  }

  /** The numerator of `hash_to_uniform01`: the unpacked integer plus one, in [1, 2^64]. */
  function Numerator(digest: Digest): (u: nat)
    ensures 1 <= u <= Two64
    ensures u - 1 == UnpackU64(digest).value
  {
    UnpackU64(digest).value + 1
  }

  /** `hash_to_uniform01` over the reals: (integer + 1) / 2^64, which lies in (0, 1]. */
  function Uniform(u: nat): (r: real)
    requires 1 <= u <= Two64
    ensures 0.0 < r <= 1.0
    ensures r * (Two64 as real) == u as real
  {
    u as real / Two64 as real
  }

  /** The body of `crash_point` after the draw, step by step over the reals:
      x = (1 - HOUSE_EDGE) / r; truncate 100 x to an int; divide by 100 (the two-decimal rounding
      of a whole number of hundredths is that number); clamp below at 1.00. */
  function CrashFromDraw(r: real): real
    requires 0.0 < r <= 1.0
  {
    var x := (1.0 - HouseEdge) / r;
    var truncated := (x * 100.0).Floor;
    var rounded := truncated as real / 100.0;
    if 1.00 >= rounded then 1.00 else rounded
  }

  /** The crash point in whole hundredths: the largest h with h u <= 99 2^64, but at least 100.
      Every h at or above the result overshoots, so it is never smaller than that floor. */
  function CrashHundredths(u: nat): (h: int)
    requires 1 <= u <= Two64
    ensures h >= 100
    ensures h > 100 ==> h * u <= 99 * Two64
    ensures 99 * Two64 < (h + 1) * u
  {
    var q := (99 * Two64) / u;
    var h := if 100 >= q then 100 else q;
    QuotientOvershoots(99 * Two64, u, h);
    h
  }

  /** If y u equals the whole number a, then the floor of y is a div u. */
  lemma FloorOfQuotient(y: real, a: nat, u: nat)
    requires u > 0 && y * (u as real) == a as real
    ensures y.Floor == a / u
  {
    var q := a / u;
    var rem := a % u;
    assert a == q * u + rem;
    var d := y - q as real;
    assert d * (u as real) == rem as real;
    assert d == (rem as real) / (u as real);
    assert 0.0 <= d < 1.0;
  }

  /** The real-valued formula of `crash_point` equals max(100, floor(99 2^64 / u)) hundredths. */
  lemma CrashFromDrawIsHundredths(u: nat)
    requires 1 <= u <= Two64
    ensures CrashFromDraw(Uniform(u)) == CrashHundredths(u) as real / 100.0
  {
    var r := Uniform(u);
    var x := (1.0 - HouseEdge) / r;
    var y := x * 100.0;
    assert x * r == 0.99;
    assert y * (u as real) == (99 * Two64) as real by {
      calc {
        y * (u as real);
        x * 100.0 * (r * (Two64 as real));
        (x * r) * (100.0 * (Two64 as real));
        0.99 * (100.0 * (Two64 as real));
      }
    }
    FloorOfQuotient(y, 99 * Two64, u);
  }

  /** A product with a positive factor is positive only if the other factor is. */
  lemma PositiveFactor(d: int, u: int)
    requires u > 0 && d * u > 0
    ensures d > 0
  {
  }

  /** q u <= a implies q <= a div u. */
  lemma DivIsLargest(a: nat, u: nat, q: int)
    requires u > 0 && q * u <= a
    ensures q <= a / u
  {
    var m := a / u;
    var rem := a % u;
    assert a == m * u + rem && rem < u;
    assert (m + 1 - q) * u == (m + 1) * u - q * u;
    assert (m + 1) * u == m * u + u;
    PositiveFactor(m + 1 - q, u);
  }

  /** The quotient times the divisor does not exceed the dividend. */
  lemma QuotientBound(a: nat, u: nat)
    requires u > 0
    ensures (a / u) * u <= a
  {
    assert a == (a / u) * u + a % u;
  }

  /** Any h at or above a div u overshoots: a < (h + 1) u. */
  lemma QuotientOvershoots(a: nat, u: nat, h: int)
    requires u > 0 && h >= a / u
    ensures a < (h + 1) * u
  {
    var m := a / u;
    assert a == m * u + a % u && a % u < u;
    MulMonotone(u, (m + 1) as nat, (h + 1) as nat);
    assert (m + 1) * u == m * u + u;
  }

  /** Multiplying by a non-negative number keeps the order. */
  lemma MulMonotone(q: nat, u1: nat, u2: nat)
    requires u1 <= u2
    ensures q * u1 <= q * u2
  {
    assert q * u2 == q * u1 + q * (u2 - u1);
  }

  /** Integer division by a larger divisor gives a quotient no larger. */
  lemma DivAntitone(a: nat, u1: nat, u2: nat)
    requires 0 < u1 <= u2
    ensures a / u2 <= a / u1
  {
    var q2 := a / u2;
    QuotientBound(a, u2);
    MulMonotone(q2, u1, u2);
    DivIsLargest(a, u1, q2);
  }

  /** A larger draw never gives a larger crash point. */
  lemma CrashHundredthsNonIncreasing(u1: nat, u2: nat)
    requires 1 <= u1 <= u2 <= Two64
    ensures CrashHundredths(u2) <= CrashHundredths(u1)
  {
    DivAntitone(99 * Two64, u1, u2);
  }

  /** At the top draw r = 1 the raw value is 0.99 (the 1% house edge) and the clamp gives 1.00. */
  lemma TopDrawIsHouseEdge()
    ensures Uniform(Two64) == 1.0
    ensures (1.0 - HouseEdge) / Uniform(Two64) == 0.99
    ensures CrashHundredths(Two64) == 100
    ensures CrashFromDraw(Uniform(Two64)) == 1.0
  {
  }

  /** `crash_point(server_seed, client_seed, nonce)`: at least 1.00, a whole number of hundredths,
      and exactly max(100, floor(99 2^64 / u)) hundredths for u = the digest's first eight bytes
      read big-endian, plus one. */
  function CrashPoint(hmac: (string, string) -> Digest, serverSeed: string, clientSeed: string, nonce: int): (x: real)
    ensures x >= 1.0
    ensures (x * 100.0).Floor as real == x * 100.0
    ensures x * 100.0 == CrashHundredths(BigEndian(hmac(serverSeed, clientSeed + ":" + PyText.IntToString(nonce))[..8]) + 1) as real
  {
    var digest := hmac(serverSeed, clientSeed + ":" + PyText.IntToString(nonce));
    var u := Numerator(digest);
    CrashFromDrawIsHundredths(u);
    CrashFromDraw(Uniform(u))
  }
}

=== FILE: fifo.dfy ===
/** A bounded first-in-first-out buffer of recent round outcomes.

    The server keeps its crash history in a `deque(maxlen=50)` and the demo client keeps its
    trend strip in an array that is pushed and then shifted once when it grows past 12. Both
    append at the newest end and evict from the oldest end; this module is that one concept. */
module Fifo {

  /** The newest `cap` entries of `s`, oldest first (all of `s` when it is shorter). */
  function Window<T>(s: seq<T>, cap: nat): (w: seq<T>)
    ensures |w| == if |s| < cap then |s| else cap
    ensures w == s[|s| - |w|..]
  {
    if |s| <= cap then s else s[|s| - cap..]
  }

  /** Appends `x`; if that makes the buffer longer than `cap`, the oldest entry is shifted out. */
  function Push<T>(q: seq<T>, cap: nat, x: T): (r: seq<T>)
    requires 0 < cap
    ensures |r| == if |q| < cap then |q| + 1 else |q|
    ensures r == (q + [x])[|q| + 1 - |r|..]
    ensures r[|r| - 1] == x
    ensures |q| <= cap ==> |r| <= cap
  {
    var grown := q + [x];
    if |grown| > cap then grown[1..] else grown
  }

  /** Pushes every element of `xs`, oldest first. */
  function PushAll<T>(q: seq<T>, cap: nat, xs: seq<T>): (r: seq<T>)
    requires 0 < cap
    ensures |q| <= cap ==> |r| <= cap
    decreases |xs|
  {
    if xs == [] then q else PushAll(Push(q, cap, xs[0]), cap, xs[1..])
  }

  /** Dropping entries from the front does not change the window while enough entries remain. */
  lemma WindowDropFront<T>(s: seq<T>, k: nat, cap: nat)
    requires k <= |s| && cap <= |s| - k
    ensures Window(s[k..], cap) == Window(s, cap)
  {
  }

  /** One push, followed by anything, leaves the same window as appending without eviction. */
  lemma PushThenWindow<T>(q: seq<T>, cap: nat, x: T, ys: seq<T>)
    requires 0 < cap && |q| <= cap
    ensures Window(Push(q, cap, x) + ys, cap) == Window(q + [x] + ys, cap)
  {
    var s := q + [x] + ys;
    if |q| + 1 > cap {
      assert Push(q, cap, x) + ys == s[1..];
      WindowDropFront(s, 1, cap);
    } else {
      assert Push(q, cap, x) + ys == s;
    }
  }

  /** The FIFO discipline: after any number of pushes the buffer holds exactly the newest `cap`
      values ever seen, oldest first, so the oldest entries are the ones evicted. */
  lemma {:induction false} PushAllIsWindow<T>(q: seq<T>, cap: nat, xs: seq<T>)
    requires 0 < cap && |q| <= cap
    ensures PushAll(q, cap, xs) == Window(q + xs, cap)
    decreases |xs|
  {
    if xs == [] {
      assert q + xs == q;
    } else {
      var q' := Push(q, cap, xs[0]);
      var rest := xs[1..];
      PushAllIsWindow(q', cap, rest);
      PushThenWindow(q, cap, xs[0], rest);
      assert q + [xs[0]] + rest == q + xs by {
        assert [xs[0]] + rest == xs;
      }
    }
  }
}

=== FILE: game_loop.dfy ===
/** The server's round cycle (`game_loop`) and the invariants it keeps together with the ledger.

    The loop is a program counter plus the shared server state. Sleeps and broadcasts become
    steps: `Advance(now, ...)` is the loop resuming at wall-clock time `now`. Request handlers
    may run between any two loop steps, each atomically. */
module GameLoop {
  import opened Outcomes
  import opened PyText
  import opened Curve
  import opened Ledger
  import Fifo

  /** `HISTORY = deque(maxlen=50)`. */
  const HistoryCap: nat := 50

  /** `GameState.cooldown_sec`. */
  const CooldownSec: real := 20.0

  /** Where the loop is suspended: before its first cycle, in the cooldown countdown, in the
      ~30 FPS tick loop, in the broadcast of a crash whose final value is not yet in the history,
      or in the one-second pause after a crash. */
  datatype Pc = StartOfCycle | CountingDown | Ticking | Broadcasting(finalX: real) | Pausing

  datatype Loop = Loop(server: Server, pc: Pc)

  /** Top of the cycle: phase cooldown, the next round id, an empty bet table for it, and a
      cooldown deadline 20 s ahead. */
  function EnterCooldown(s: Server, now: real): (s': Server)
    ensures s'.phase == Cooldown
    ensures s'.roundId == s.roundId + 1
    ensures s'.roundId in s'.bets && s'.bets == s.bets[s'.roundId := RoundBets(s, s'.roundId)]
    ensures s'.cooldownUntil == now + CooldownSec
    ensures s'.balances == s.balances && s'.history == s.history && s'.crashTarget == s.crashTarget
    ensures s' == s.(phase := Cooldown, roundId := s'.roundId, bets := s'.bets, cooldownUntil := s'.cooldownUntil)
  {
    var rid := s.roundId + 1;
    s.(phase := Cooldown, roundId := rid, bets := s.bets[rid := RoundBets(s, rid)], cooldownUntil := now + CooldownSec)
  }

  /** End of the countdown: phase running from `now`, with a freshly drawn crash target. */
  function EnterRunning(s: Server, now: real, r: real, u: real): (s': Server)
    requires IsDraw(r) && IsDraw(u)
    ensures s'.phase == Running && s'.roundStart == now
    ensures MinTarget <= s'.crashTarget < MaxX
    ensures s' == s.(phase := Running, roundStart := now, crashTarget := s'.crashTarget)
  {
    s.(phase := Running, roundStart := now, crashTarget := PickCrashTarget(r, u))
  }

  /** The value recorded for a crash observed at `now`: never below the crash target. */
  function FinalX(s: Server, g: Growth, now: real): (x: real)
    ensures x >= s.crashTarget
    ensures x >= XFromT(g, now - s.roundStart)
    ensures x == s.crashTarget || x == XFromT(g, now - s.roundStart)
  {
    var seen := XFromT(g, now - s.roundStart);
    if s.crashTarget >= seen then s.crashTarget else seen
  }

  /** The end of a crash, once its broadcast is done: the final value x goes into the bounded
      history. The phase is NOT changed; it stays running through the pause that follows. */
  function Crash(s: Server, x: real): (s': Server)
    ensures s'.phase == s.phase
    ensures s'.history == Fifo.Push(s.history, HistoryCap, x)
    ensures s' == s.(history := s'.history)
  {
    s.(history := Fifo.Push(s.history, HistoryCap, x))
  }

  /** One resumption of the loop at time `now`; `r` and `u` are the draws used if a round starts.
      The countdown ends once `now` reaches the deadline; the tick loop ends once the curve reaches
      the crash target, and the final value is broadcast BEFORE it is appended to the history, so
      requests can see the crash's phase without its history entry; the pause always ends. Before
      that the loop only broadcasts. */
  function Advance(l: Loop, g: Growth, now: real, r: real, u: real): (l': Loop)
    requires IsDraw(r) && IsDraw(u)
    ensures l'.server.roundId == if l.pc in {StartOfCycle, Pausing} then l.server.roundId + 1 else l.server.roundId
    ensures l'.server.phase != l.server.phase ==> l'.server.phase != Crashed
    ensures l'.server.balances == l.server.balances
    ensures l'.pc.Broadcasting? <==> l.pc == Ticking && XFromT(g, now - l.server.roundStart) >= l.server.crashTarget
    ensures l'.pc.Broadcasting? ==> l'.pc.finalX == FinalX(l.server, g, now) && l'.server == l.server
    ensures l'.pc == Pausing <==> l.pc.Broadcasting?
    ensures l'.server.history != l.server.history ==> l.pc.Broadcasting?
    ensures l.pc == CountingDown ==>
      l' == if now < l.server.cooldownUntil then l else Loop(EnterRunning(l.server, now, r, u), Ticking)
    ensures l.pc == Ticking && XFromT(g, now - l.server.roundStart) < l.server.crashTarget ==> l' == l
    ensures l.pc in {StartOfCycle, Pausing} ==> l' == Loop(EnterCooldown(l.server, now), CountingDown)
    ensures l.pc.Broadcasting? ==> l' == Loop(Crash(l.server, l.pc.finalX), Pausing)
  {
    var s := l.server;
    match l.pc
    case StartOfCycle => Loop(EnterCooldown(s, now), CountingDown)
    case Pausing => Loop(EnterCooldown(s, now), CountingDown)
    case CountingDown =>
      if now < s.cooldownUntil then l else Loop(EnterRunning(s, now, r, u), Ticking)
    case Ticking =>
      if XFromT(g, now - s.roundStart) >= s.crashTarget then Loop(s, Broadcasting(FinalX(s, g, now))) else l
    case Broadcasting(x) => Loop(Crash(s, x), Pausing)
  }

  /** Everything that can happen to the server: the loop resuming, or one request handler. */
  datatype Event =
    | Resume(now: real, r: real, u: real)
    | DepositRequest(depositor: JsonValue, deposit: Option<real>)
    | BetRequest(bettor: JsonValue, stake: Option<real>)
    | CashoutRequest(caller: JsonValue, at: real)

  predicate EventOk(e: Event) {
    e.Resume? ==> IsDraw(e.r) && IsDraw(e.u)
  }

  function Step(l: Loop, g: Growth, e: Event): Loop
    requires EventOk(e)
  {
    match e
    case Resume(now, r, u) => Advance(l, g, now, r, u)
    case DepositRequest(id, a) => l.(server := Deposit(l.server, id, a).after)
    case BetRequest(id, a) => l.(server := MakeBet(l.server, id, a).after)
    case CashoutRequest(id, t) => l.(server := Cashout(l.server, id, g, t).after)
  }

  function Run(l: Loop, g: Growth, es: seq<Event>): Loop
    requires forall i :: 0 <= i < |es| ==> EventOk(es[i])
    decreases |es|
  {
    if es == [] then l else Run(Step(l, g, es[0]), g, es[1..])
  }

  /** What holds in every reachable state. The phase is only ever cooldown or running, and it
      is running exactly while the loop ticks, broadcasts a crash or pauses after one; the history
      is bounded and every entry, including one still being broadcast, is at least 1.01; balances
      never go negative; every recorded stake is positive. */
  ghost predicate Inv(l: Loop) {
    var s := l.server;
    && s.phase != Crashed
    && (s.phase == Running <==> l.pc in {Ticking, Pausing} || l.pc.Broadcasting?)
    && (l.pc.Broadcasting? ==> l.pc.finalX >= MinTarget)
    && (l.pc != StartOfCycle ==> s.roundId in s.bets)
    && |s.history| <= HistoryCap
    && (forall i :: 0 <= i < |s.history| ==> s.history[i] >= MinTarget)
    && MinTarget <= s.crashTarget
    && (forall u :: u in s.balances ==> s.balances[u] >= 0.0)
    && (forall rid, u :: rid in s.bets && u in s.bets[rid] ==> s.bets[rid][u].amount > 0.0)
  }

  const Start: Loop := Loop(Boot, StartOfCycle)

  lemma StartInv()
    ensures Inv(Start)
  {
  }

  /** A crash keeps the history within 50 entries, each at least 1.01. */
  lemma CrashKeepsHistory(s: Server, x: real)
    requires |s.history| <= HistoryCap && MinTarget <= x
    requires forall i :: 0 <= i < |s.history| ==> s.history[i] >= MinTarget
    ensures |Crash(s, x).history| <= HistoryCap
    ensures forall i :: 0 <= i < |Crash(s, x).history| ==> Crash(s, x).history[i] >= MinTarget
  {
    var h' := Fifo.Push(s.history, HistoryCap, x);
    var k := |s.history| + 1 - |h'|;
    forall i | 0 <= i < |h'|
      ensures h'[i] >= MinTarget
    {
      assert h'[i] == (s.history + [x])[k + i];
      if k + i < |s.history| {
        assert h'[i] == s.history[k + i];
      }
    }
  }

  lemma AdvanceInv(l: Loop, g: Growth, now: real, r: real, u: real)
    requires Inv(l) && IsDraw(r) && IsDraw(u)
    ensures Inv(Advance(l, g, now, r, u))
  {
    if l.pc.Broadcasting? {
      CrashKeepsHistory(l.server, l.pc.finalX);
    }
  }

  lemma {:induction false} StepInv(l: Loop, g: Growth, e: Event)
    requires Inv(l) && EventOk(e) && PositiveExp(g)
    ensures Inv(Step(l, g, e))
  {
    var s := l.server;
    match e
    case Resume(now, r, u) =>
      AdvanceInv(l, g, now, r, u);
    case DepositRequest(id, a) =>
    case BetRequest(id, a) =>
      var h := MakeBet(s, id, a);
      if h.result.Ok? {
        assert forall rid, v :: rid in h.after.bets && v in h.after.bets[rid] ==>
          h.after.bets[rid][v].amount > 0.0;
      }
    case CashoutRequest(id, t) =>
      var h := Cashout(s, id, g, t);
      if h.result.Ok? {
        var rc := h.result.value;
        var stake := RoundBets(s, s.roundId)[PyStr(id)].amount;
        var elapsed := if t - s.roundStart > 0.0 then t - s.roundStart else 0.0;
        XFromTPositive(g, elapsed);
        assert rc.multiplier > 0.0;
        assert stake > 0.0;
        assert rc.payout > 0.0;
      }
  }

  /** Every state the server can reach from start-up satisfies `Inv`; in particular the phase is
      never "crashed" and the history never holds more than 50 entries. */
  lemma {:induction false} RunInv(l: Loop, g: Growth, es: seq<Event>)
    requires Inv(l) && PositiveExp(g)
    requires forall i :: 0 <= i < |es| ==> EventOk(es[i])
    ensures Inv(Run(l, g, es))
    decreases |es|
  {
    if es != [] {
      StepInv(l, g, es[0]);
      RunInv(Step(l, g, es[0]), g, es[1..]);
    }
  }

  /** A full cycle from the top: cooldown, running, the crash broadcast, the pause. The round id
      rises by exactly one; while the crash is broadcast the history does not have it yet; the
      phase read during the post-crash pause is still running; the newest history entry is at
      least the round's crash target; and no balance changes. */
  lemma CycleFacts(l: Loop, g: Growth, t1: real, t2: real, t3: real, t4: real, r: real, u: real)
    requires l.pc in {StartOfCycle, Pausing} && IsDraw(r) && IsDraw(u)
    requires t2 >= t1 + CooldownSec
    requires XFromT(g, t3 - t2) >= PickCrashTarget(r, u)
    ensures
      var l1 := Advance(l, g, t1, r, u);
      var l2 := Advance(l1, g, t2, r, u);
      var l3 := Advance(l2, g, t3, r, u);
      var l4 := Advance(l3, g, t4, r, u);
      && l1.server.phase == Cooldown && l1.server.cooldownUntil == t1 + CooldownSec
      && l2.server.phase == Running && l3.server.phase == Running
      && l3.pc.Broadcasting? && l3.server.history == l.server.history
      && l4.pc == Pausing && l4.server.phase == Running
      && l4.server.roundId == l.server.roundId + 1
      && l4.server.history[|l4.server.history| - 1] >= l4.server.crashTarget == PickCrashTarget(r, u)
      && l4.server.balances == l.server.balances
  {
  }

  /** While a crash is broadcast and during the pause after it, a user holding an uncashed bet in
      the round that just crashed can still cash out. */
  lemma CashoutAcceptedWhilePausing(l: Loop, g: Growth, tgId: JsonValue, now: real)
    requires Inv(l) && (l.pc == Pausing || l.pc.Broadcasting?)
    requires tgId != Str("")
    requires PyStr(tgId) in RoundBets(l.server, l.server.roundId)
    requires !RoundBets(l.server, l.server.roundId)[PyStr(tgId)].cashed
    ensures Cashout(l.server, tgId, g, now).result.Ok?
  {
  }

  /** Once a crash's broadcast is done, the reply of `history(limit)` starts with its value. */
  lemma HistoryNewestFirst(l: Loop, g: Growth, now: real, r: real, u: real, limit: int)
    requires l.pc.Broadcasting? && IsDraw(r) && IsDraw(u) && limit > 0
    ensures HistoryQuery(Advance(l, g, now, r, u).server.history, limit)[0] == l.pc.finalX
  {
  }

  /** The betting window: until the cooldown deadline the loop stays in the countdown with the
      phase cooldown, so bets are still accepted; only a resumption at or after the deadline
      starts the round. */
  lemma BettingWindowLastsUntilDeadline(l: Loop, g: Growth, now: real, r: real, u: real)
    requires Inv(l) && l.pc == CountingDown && IsDraw(r) && IsDraw(u)
    ensures now < l.server.cooldownUntil ==>
      Advance(l, g, now, r, u) == l && Advance(l, g, now, r, u).server.phase == Cooldown
    ensures now >= l.server.cooldownUntil ==>
      Advance(l, g, now, r, u).pc == Ticking && Advance(l, g, now, r, u).server.phase == Running
  {
  }
}

=== FILE: jsnum.dfy ===
/** The part of JavaScript's Number semantics the demo client's input handling relies on.

    A text field read with `Number(...)` can yield NaN or an infinity as well as a finite value,
    and `Math.max`/`Math.min` propagate NaN. Finite values are exact reals here; IEEE-754
    rounding is not modelled. */
module JsNum {
  import opened Outcomes

  datatype Num = NaN | PosInf | NegInf | Fin(v: real)

  const Two31: int := 0x8000_0000
  const Two32: int := 0x1_0000_0000

  /** JavaScript `a <= b`: false whenever either side is NaN. */
  predicate Le(a: Num, b: Num) {
    if a.NaN? || b.NaN? then false
    else if a.NegInf? || b.PosInf? then true
    else if a.PosInf? || b.NegInf? then false
    else a.v <= b.v
  }

  /** JavaScript truthiness of a number that may be null or absent: a present, non-zero value. */
  predicate Truthy(a: Option<real>) {
    a.Some? && a.value != 0.0
  }

  /** `Math.max(a, b)`. */
  function Max(a: Num, b: Num): (r: Num)
    ensures r.NaN? <==> a.NaN? || b.NaN?
    ensures !r.NaN? ==> Le(a, r) && Le(b, r) && (r == a || r == b)
  {
    if a.NaN? || b.NaN? then NaN else if Le(a, b) then b else a
  }

  /** `Math.min(a, b)`. */
  function Min(a: Num, b: Num): (r: Num)
    ensures r.NaN? <==> a.NaN? || b.NaN?
    ensures !r.NaN? ==> Le(r, a) && Le(r, b) && (r == a || r == b)
  {
    if a.NaN? || b.NaN? then NaN else if Le(a, b) then a else b
  }

  /** `Math.floor(a)`. */
  function Floor(a: Num): (r: Num)
    ensures r.Fin? <==> a.Fin?
    ensures a.Fin? ==> r.v <= a.v < r.v + 1.0 && r.v == r.v.Floor as real
    ensures !a.Fin? ==> r == a
  {
    if a.Fin? then Fin(a.v.Floor as real) else a
  }

  /** `a / 2`. */
  function Half(a: Num): (r: Num)
    ensures a.Fin? ==> r.Fin? && r.v + r.v == a.v
    ensures !a.Fin? ==> r == a
  {
    if a.Fin? then Fin(a.v / 2.0) else a
  }

  /** `a * 2`. */
  function Double(a: Num): (r: Num)
    ensures a.Fin? ==> r.Fin? && r.v == a.v + a.v
    ensures !a.Fin? ==> r == a
  {
    if a.Fin? then Fin(a.v * 2.0) else a
  }

  /** Truncation toward zero, as the ECMAScript ToInt32 conversion performs before wrapping. */
  function Trunc(x: real): (t: int)
    ensures 0.0 <= x ==> t as real <= x < t as real + 1.0
    ensures x < 0.0 ==> t as real - 1.0 < x <= t as real
  {
    if x >= 0.0 then x.Floor else -((-x).Floor)
  }

  /** `a | 0`: NaN and the infinities become 0; a finite value is truncated and then wrapped
      modulo 2^32 into the signed 32-bit range. */
  function ToInt32(a: Num): (r: int)
    ensures -Two31 <= r < Two31
    ensures !a.Fin? ==> r == 0
    ensures a.Fin? ==> (r - Trunc(a.v)) % Two32 == 0
    ensures a.Fin? && -Two31 <= Trunc(a.v) < Two31 ==> r == Trunc(a.v)
  {
    if a.Fin? then
      var m := Trunc(a.v) % Two32;
      if m >= Two31 then m - Two32 else m
    else 0
  }
}

=== FILE: ledger.dfy ===
/** The server's demo betting ledger (`deposit_mock`, `make_bet`, `cashout`, `history`).

    Each handler runs atomically (the bet and cash-out handlers hold `state_lock`, the deposit
    handler has no await between its read and its write), so each is a pure function from the
    server state to the state after the call and the reply. An `HTTPException` raised inside the
    locked block does not undo the writes made before it; `Handled.after` keeps them. Balances
    are Python floats in the source and exact reals here. */
module Ledger {
  import opened Outcomes
  import opened PyText
  import opened Curve

  type UserId = string

  /** The values the code's comment lists for `GameState.phase`. */
  datatype Phase = Cooldown | Running | Crashed

  /** One user's stake in one round: `{"amount", "cashed", "cash_x"}`. */
  datatype BetRecord = BetRecord(amount: real, cashed: bool, cashX: Option<real>)

  /** `GameState` together with the module-level tables `balances`, `bets` and `HISTORY`. */
  datatype Server = Server(
    phase: Phase,
    roundId: int,
    roundStart: real,
    cooldownUntil: real,
    crashTarget: real,
    balances: map<UserId, real>,
    bets: map<int, map<UserId, BetRecord>>,
    history: seq<real>)

  /** The state at import time, before the game loop's first cycle. */
  const Boot: Server := Server(Cooldown, 0, 0.0, 0.0, 2.0, map[], map[], [])

  /** The HTTP 400 refusals of the three handlers. */
  datatype Rejection =
    | MissingTgId
    | AmountNotPositive
    | BetsOnlyInCooldown
    | InsufficientBalance
    | AlreadyBet
    | CashoutOnlyInRunning
    | NoBetThisRound
    | AlreadyCashedOut

  /** The `detail` text of each refusal. */
  function Detail(e: Rejection): string {
    match e
    case MissingTgId => "missing tg_id"
    case AmountNotPositive => "amount must be > 0"
    case BetsOnlyInCooldown => "bets only during cooldown"
    case InsufficientBalance => "insufficient balance"
    case AlreadyBet => "already bet this round"
    case CashoutOnlyInRunning => "cashout only in running"
    case NoBetThisRound => "no bet in this round"
    case AlreadyCashedOut => "already cashed out"
  }

  /** Each refusal has its own `detail` text, so a client can tell every refusal apart. */
  lemma DetailsDistinguishRefusals(a: Rejection, b: Rejection)
    ensures Detail(a) == Detail(b) <==> a == b
  {
  }

  /** The state after a handler ran, and its reply or refusal. */
  datatype Handled<T> = Handled(after: Server, result: Result<T, Rejection>)

  /** The body of a successful cash-out reply. */
  datatype Receipt = Receipt(multiplier: real, payout: real, balance: real)

  /** `balances.get(tg_id, 0.0)`. */
  function BalanceOf(s: Server, id: UserId): real {
    if id in s.balances then s.balances[id] else 0.0
  }

  /** `bets.get(round_id, {})`. */
  function RoundBets(s: Server, rid: int): map<UserId, BetRecord> {
    if rid in s.bets then s.bets[rid] else map[]
  }

  /** `float(payload.get("amount", 0))` for a numeric or absent amount. */
  function AmountOf(amount: Option<real>): real {
    if amount.Some? then amount.value else 0.0
  }

  /** Only the balances table changed, and only at `id`. */
  ghost predicate OnlyBalanceOf(s: Server, s': Server, id: UserId) {
    && s' == s.(balances := s'.balances)
    && forall u :: u != id ==> BalanceOf(s', u) == BalanceOf(s, u)
  }

  /** `deposit_mock`: credits a positive amount to any user, in any phase. The only id it
      refuses is the empty string, since `str()` of an absent or null id is "None". */
  function Deposit(s: Server, tgId: JsonValue, amount: Option<real>): (h: Handled<real>)
    ensures h.result == Err(MissingTgId) <==> tgId == Str("")
    ensures h.result == Err(AmountNotPositive) <==> tgId != Str("") && AmountOf(amount) <= 0.0
    ensures h.result.Ok? <==> tgId != Str("") && AmountOf(amount) > 0.0
    ensures h.result.Err? ==> h.after == s
    ensures h.result.Ok? ==>
      && OnlyBalanceOf(s, h.after, PyStr(tgId))
      && h.result.value == BalanceOf(h.after, PyStr(tgId)) == BalanceOf(s, PyStr(tgId)) + AmountOf(amount)
  {
    var id := PyStr(tgId);
    var amt := AmountOf(amount);
    if id == "" then Handled(s, Err(MissingTgId))
    else if amt <= 0.0 then Handled(s, Err(AmountNotPositive))
    else
      var after := s.(balances := s.balances[id := BalanceOf(s, id) + amt]);
      Handled(after, Ok(BalanceOf(after, id)))
  }

  /** The guards `make_bet` checks before it touches the balance. */
  predicate BetAdmissible(s: Server, id: UserId, amt: real) {
    id != "" && amt > 0.0 && s.phase == Cooldown && BalanceOf(s, id) >= amt
  }

  /** `make_bet`. Refusals for a missing id, a non-positive amount, the wrong phase or an
      insufficient balance leave the state alone. Otherwise the stake is debited FIRST, and only
      then is a second bet in the same round refused, so that refusal keeps the debit. An
      accepted bet records `{amount, cashed: false, cash_x: None}` under the current round. */
  function MakeBet(s: Server, tgId: JsonValue, amount: Option<real>): (h: Handled<real>)
    ensures h.result == Err(MissingTgId) <==> tgId == Str("")
    ensures h.result == Err(AmountNotPositive) <==> PyStr(tgId) != "" && AmountOf(amount) <= 0.0
    ensures h.result == Err(BetsOnlyInCooldown) <==>
      PyStr(tgId) != "" && AmountOf(amount) > 0.0 && s.phase != Cooldown
    ensures h.result == Err(InsufficientBalance) <==>
      PyStr(tgId) != "" && AmountOf(amount) > 0.0 && s.phase == Cooldown && BalanceOf(s, PyStr(tgId)) < AmountOf(amount)
    ensures h.result == Err(AlreadyBet) <==>
      BetAdmissible(s, PyStr(tgId), AmountOf(amount)) && PyStr(tgId) in RoundBets(s, s.roundId)
    ensures h.result.Ok? <==>
      BetAdmissible(s, PyStr(tgId), AmountOf(amount)) && PyStr(tgId) !in RoundBets(s, s.roundId)
    ensures !BetAdmissible(s, PyStr(tgId), AmountOf(amount)) ==> h.after == s
    ensures BetAdmissible(s, PyStr(tgId), AmountOf(amount)) ==>
      && h.after.balances == s.balances[PyStr(tgId) := BalanceOf(s, PyStr(tgId)) - AmountOf(amount)]
      && h.after == s.(balances := h.after.balances, bets := h.after.bets)
    ensures h.result == Err(AlreadyBet) ==> h.after.bets == s.bets
    ensures h.result.Ok? ==>
      && h.after.bets == s.bets[s.roundId := RoundBets(s, s.roundId)[PyStr(tgId) := BetRecord(AmountOf(amount), false, None)]]
      && h.result.value == BalanceOf(h.after, PyStr(tgId))
  {
    var id := PyStr(tgId);
    var amt := AmountOf(amount);
    if id == "" then Handled(s, Err(MissingTgId))
    else if amt <= 0.0 then Handled(s, Err(AmountNotPositive))
    else if s.phase != Cooldown then Handled(s, Err(BetsOnlyInCooldown))
    else if BalanceOf(s, id) < amt then Handled(s, Err(InsufficientBalance))
    else
      var debited := s.(balances := s.balances[id := BalanceOf(s, id) - amt]);
      var rmap := RoundBets(s, s.roundId);
      var withRound := debited.(bets := debited.bets[s.roundId := rmap]);
      if id in rmap then Handled(withRound, Err(AlreadyBet))
      else
        var after := withRound.(bets := withRound.bets[s.roundId := rmap[id := BetRecord(amt, false, None)]]);
        Handled(after, Ok(BalanceOf(after, id)))
  }

  /** `cashout`. It is accepted only in phase running, for a user with an uncashed bet in the
      current round. The multiplier is the curve at the elapsed time, capped at the crash target;
      the payout is stake times multiplier; the bet is marked cashed at that multiplier and the
      balance rises by exactly the payout. Every refusal leaves the state alone. */
  function Cashout(s: Server, tgId: JsonValue, g: Growth, now: real): (h: Handled<Receipt>)
    ensures h.result == Err(MissingTgId) <==> tgId == Str("")
    ensures h.result == Err(CashoutOnlyInRunning) <==> tgId != Str("") && s.phase != Running
    ensures h.result == Err(NoBetThisRound) <==>
      tgId != Str("") && s.phase == Running && PyStr(tgId) !in RoundBets(s, s.roundId)
    ensures h.result == Err(AlreadyCashedOut) <==>
      && tgId != Str("") && s.phase == Running && PyStr(tgId) in RoundBets(s, s.roundId)
      && RoundBets(s, s.roundId)[PyStr(tgId)].cashed
    ensures h.result.Ok? <==>
      && tgId != Str("") && s.phase == Running && PyStr(tgId) in RoundBets(s, s.roundId)
      && !RoundBets(s, s.roundId)[PyStr(tgId)].cashed
    ensures h.result.Err? ==> h.after == s
    ensures h.result.Ok? ==>
      var id := PyStr(tgId);
      var stake := RoundBets(s, s.roundId)[id].amount;
      var rc := h.result.value;
      var elapsed := if now - s.roundStart > 0.0 then now - s.roundStart else 0.0;
      && rc.multiplier <= s.crashTarget
      && rc.multiplier <= XFromT(g, elapsed)
      && (rc.multiplier == XFromT(g, elapsed) || rc.multiplier == s.crashTarget)
      && rc.multiplier <= MaxX
      && rc.payout == stake * rc.multiplier
      && rc.balance == BalanceOf(h.after, id) == BalanceOf(s, id) + rc.payout
      && h.after.bets == s.bets[s.roundId := RoundBets(s, s.roundId)[id := BetRecord(stake, true, Some(rc.multiplier))]]
      && h.after.balances == s.balances[id := rc.balance]
      && h.after == s.(balances := h.after.balances, bets := h.after.bets)
  {
    var id := PyStr(tgId);
    var rmap := RoundBets(s, s.roundId);
    if id == "" then Handled(s, Err(MissingTgId))
    else if s.phase != Running then Handled(s, Err(CashoutOnlyInRunning))
    else if id !in rmap then Handled(s, Err(NoBetThisRound))
    else if rmap[id].cashed then Handled(s, Err(AlreadyCashedOut))
    else
      var rb := rmap[id];
      var t := if now - s.roundStart > 0.0 then now - s.roundStart else 0.0;
      var curve := XFromT(g, t);
      var x := if curve <= s.crashTarget then curve else s.crashTarget;
      var payout := rb.amount * x;
      var balance := BalanceOf(s, id) + payout;
      var after := s.(bets := s.bets[s.roundId := rmap[id := rb.(cashed := true, cashX := Some(x))]],
                      balances := s.balances[id := balance]);
      Handled(after, Ok(Receipt(x, payout, balance)))
  }

  /** At most one successful cash-out per user and round: once accepted, any further cash-out
      in the same round is refused and changes nothing. */
  lemma CashoutAtMostOnce(s: Server, tgId: JsonValue, g: Growth, now: real, g': Growth, later: real)
    requires Cashout(s, tgId, g, now).result.Ok?
    ensures Cashout(Cashout(s, tgId, g, now).after, tgId, g', later).result == Err(AlreadyCashedOut)
    ensures Cashout(Cashout(s, tgId, g, now).after, tgId, g', later).after == Cashout(s, tgId, g, now).after
  {
  }

  /** Betting twice in one round: the second call is refused as a duplicate only after the
      balance check passed, and the refused stake stays debited. */
  lemma DuplicateBetKeepsDebit(s: Server, tgId: JsonValue, a1: Option<real>, a2: Option<real>)
    requires MakeBet(s, tgId, a1).result.Ok?
    requires BalanceOf(MakeBet(s, tgId, a1).after, PyStr(tgId)) >= AmountOf(a2) > 0.0
    ensures
      var h2 := MakeBet(MakeBet(s, tgId, a1).after, tgId, a2);
      && h2.result == Err(AlreadyBet)
      && BalanceOf(h2.after, PyStr(tgId)) == BalanceOf(s, PyStr(tgId)) - AmountOf(a1) - AmountOf(a2)
      && h2.after.bets == MakeBet(s, tgId, a1).after.bets
  {
    var h1 := MakeBet(s, tgId, a1);
    assert PyStr(tgId) in RoundBets(h1.after, h1.after.roundId);
  }

  /** Once the curve has reached the crash target (the round is over, but phase still reads
      running during the pause), a cash-out still succeeds and pays stake times the target. */
  lemma CashoutAfterCrashPaysTarget(s: Server, tgId: JsonValue, g: Growth, now: real)
    requires now >= s.roundStart
    requires XFromT(g, now - s.roundStart) >= s.crashTarget
    requires Cashout(s, tgId, g, now).result.Ok?
    ensures Cashout(s, tgId, g, now).result.value.multiplier == s.crashTarget
  {
  }

  /** `data[::-1]`. */
  function Reverse<T>(a: seq<T>): (r: seq<T>)
    ensures |r| == |a|
    ensures forall i :: 0 <= i < |a| ==> r[i] == a[|a| - 1 - i]
  {
    seq(|a|, i requires 0 <= i < |a| => a[|a| - 1 - i])
  }

  /** Python's `a[start:]`: a negative start counts from the end, and both ends are clipped. */
  function SliceFrom<T>(a: seq<T>, start: int): seq<T> {
    var n := |a|;
    var i := if start < 0 then (if start + n < 0 then 0 else start + n) else (if start > n then n else start);
    a[i..]
  }

  /** How many entries `history(limit)` returns from a history of length n: the last `limit` for a
      positive limit, all of them for 0 (the slice `[-0:]` is the whole list), and all but the
      oldest `-limit` for a negative limit. */
  function QueryLength(n: nat, limit: int): nat {
    if limit > 0 then (if limit < n then limit else n)
    else if limit == 0 then n
    else if n + limit > 0 then n + limit else 0
  }

  /** `history(limit)`: `list(HISTORY)[-limit:]` reversed, so the most recent crash comes first. */
  function HistoryQuery(h: seq<real>, limit: int): (r: seq<real>)
    ensures |r| == QueryLength(|h|, limit)
    ensures forall i :: 0 <= i < |r| ==> r[i] == h[|h| - 1 - i]
  {
    Reverse(SliceFrom(h, -limit))
  }
}

=== FILE: outcomes.dfy ===
/** Optional values and results with an error channel, shared by every module of the model. */
module Outcomes {

  /** A value that may be absent: Python's `None`, JavaScript's `null`, or a missing key. */
  datatype Option<+T> = None | Some(value: T)

  /** The outcome of a request handler: a reply, or the reason it was refused. */
  datatype Result<+T, +E> = Ok(value: T) | Err(error: E)
}

=== FILE: pytext.dfy ===
/** Python's `str()` on the values a JSON payload field can carry, as far as the ledger needs it. */
module PyText {

  /** The decimal digit for 0..9. */
  function DigitChar(d: nat): (c: char)
    requires d < 10
    ensures '0' <= c <= '9'
    ensures (c as int) - ('0' as int) == d
  {
    "0123456789"[d]
  }

  /** `str(n)` for a non-negative int: its decimal digits, most significant first, no leading zero. */
  function NatToString(n: nat): (s: string)
    ensures 1 <= |s|
    ensures forall i :: 0 <= i < |s| ==> '0' <= s[i] <= '9'
    ensures 1 < |s| ==> s[0] != '0'
    decreases n
  {
    if n < 10 then [DigitChar(n)] else NatToString(n / 10) + [DigitChar(n % 10)]
  }

  /** `str(i)` for any int: a minus sign in front of the digits of a negative number. */
  function IntToString(i: int): (s: string)
    ensures 1 <= |s|
    ensures (s[0] == '-') <==> i < 0
  {
    if i < 0 then "-" + NatToString(-i) else NatToString(i)
  }

  /** Reads a run of decimal digits back into its value (the inverse of NatToString). */
  function ParseDigits(s: string): nat
    requires forall i :: 0 <= i < |s| ==> '0' <= s[i] <= '9'
  {
    if s == [] then 0
    else ParseDigits(s[..|s| - 1]) * 10 + ((s[|s| - 1] as int) - ('0' as int))
  }

  /** Printing a natural number and reading the digits back gives the number again. */
  lemma {:induction false} ParseNatToString(n: nat)
    ensures ParseDigits(NatToString(n)) == n
    decreases n
  {
    var s := NatToString(n);
    if n >= 10 {
      ParseNatToString(n / 10);
      assert s[..|s| - 1] == NatToString(n / 10);
    }
  }

  /** A JSON value as FastAPI hands it over inside a `dict` payload; `Missing` is an absent key. */
  datatype JsonValue = Missing | Null | Bool(b: bool) | Int(i: int) | Str(s: string)

  /** `str(payload.get(key))`: an absent key and `null` both read as `None` and print as "None". */
  function PyStr(v: JsonValue): (s: string)
    ensures s == "" <==> v == Str("")
    ensures v == Missing || v == Null ==> s == "None"
    ensures v.Str? ==> s == v.s
    ensures v.Bool? ==> s == (if v.b then "True" else "False")
    ensures v.Int? ==> s == IntToString(v.i)
  {
    match v
    case Missing => "None"
    case Null => "None"
    case Bool(b) => if b then "True" else "False"
    case Int(i) => IntToString(i)
    case Str(t) => t
  }

  /** An absent id, a null id and the literal id "None" all name the same account. */
  lemma NoneIdsShareAccount()
    ensures PyStr(Missing) == PyStr(Null) == PyStr(Str("None"))
  {
  }
}

=== FILE: sync.dfy ===
/** The WebSocket client's pure helpers and its message reducer (`frontend/src/app.js`).

    Messages arrive as parsed JSON, which cannot carry NaN or infinities, so every numeric field
    is an exact real here; a field that is absent or not a number is `None`. The reducer keeps the
    code's own wire vocabulary (phases "preparing", "running", "crashed"; fields `now`,
    `startedAt`, `endsAt`, `crashX`). */
module Sync {
  import opened Outcomes
  import JsNum

  /** Share of the arena height reached at 2x. */
  const Early: real := 0.35

  /** The rising part of the curve, 1x..2x. */
  function LowerPiece(c: real): real {
    (c - 1.0) / (2.0 - 1.0) * Early
  }

  /** The slow part of the curve, 2x..50x. */
  function UpperPiece(c: real): real {
    Early + ((c - 2.0) / (50.0 - 2.0)) * (1.0 - Early)
  }

  /** `heightPctForMultiplier(x)`: the rocket's height as a fraction of the arena. It stays in
      [0, 1], is 0 up to 1x, 0.35 at 2x and 1 from 50x on. */
  function HeightPct(x: real): (h: real)
    ensures 0.0 <= h <= 1.0
    ensures x <= 1.0 ==> h == 0.0
    ensures x == 2.0 ==> h == Early
    ensures x >= 50.0 ==> h == 1.0
  {
    var atLeastOne := if x >= 1.0 then x else 1.0;
    var cap := if atLeastOne <= 50.0 then atLeastOne else 50.0;
    if cap <= 2.0 then LowerPiece(cap) else UpperPiece(cap)
  }

  /** The two pieces meet at 2x, so the height has no jump there. */
  lemma PiecesMeetAtTwo()
    ensures LowerPiece(2.0) == UpperPiece(2.0) == Early
  {
  }

  /** A larger multiplier never puts the rocket lower. */
  lemma HeightPctMonotone(x: real, y: real)
    requires x <= y
    ensures HeightPct(x) <= HeightPct(y)
  {
  }

  /** `toWs(url)`: an "https://" prefix becomes "wss://" and an "http://" prefix becomes "ws://",
      keeping the rest of the URL; any other string is returned as it is. */
  function ToWs(url: string): (r: string)
    ensures |url| >= 8 && url[..8] == "https://" ==> r == "wss://" + url[8..]
    ensures !(|url| >= 8 && url[..8] == "https://") && |url| >= 7 && url[..7] == "http://" ==> r == "ws://" + url[7..]
    ensures !(|url| >= 8 && url[..8] == "https://") && !(|url| >= 7 && url[..7] == "http://") ==> r == url
  {
    if "https://" <= url then "wss://" + url[|"https://"|..]
    else if "http://" <= url then "ws://" + url[|"http://"|..]
    else url
  }

  /** Rewriting an already rewritten URL changes nothing. */
  lemma ToWsIdempotent(url: string)
    ensures ToWs(ToWs(url)) == ToWs(url)
  {
    var r := ToWs(url);
    if r != url {
      assert r[0] == 'w';
      assert !("https://" <= r) && !("http://" <= r);
    }
  }

  /** A parsed server message, as far as the reducer reads it. */
  datatype Msg = Msg(
    kind: string,
    phase: Option<string>,
    now: Option<real>,
    startedAt: Option<real>,
    endsAt: Option<real>,
    crashX: Option<real>,
    x: Option<real>)

  /** The phase recorded in `last`. */
  datatype Shown = Preparing | Running

  /** The animation's `last = {x, phase}`. */
  datatype Last = Last(x: real, phase: Shown)

  /** An active `prepTimer` interval and the window it counts down. */
  datatype Countdown = Countdown(startedAt: real, endsAt: real)

  /** The client's mutable state: `last`, `lastCrash`, the two buttons' enabled flags,
      `nowSkew`, and the countdown interval if one is set. */
  datatype View = View(
    last: Last,
    lastCrash: Option<real>,
    betEnabled: bool,
    cashEnabled: bool,
    skew: real,
    timer: Option<Countdown>)

  /** Before the socket opens: both buttons are disabled in the markup and the skew is 0. */
  const Initial: View := View(Last(1.0, Preparing), None, false, false, 0.0, None)

  /** Clock-skew correction: a message with a numeric `now` REPLACES the skew with
      now - localNow (no blending with the old value); any other message keeps it. */
  function UpdateSkew(skew: real, msg: Msg, localNow: real): (r: real)
    ensures msg.now.Some? ==> localNow + r == msg.now.value
    ensures msg.now.None? ==> r == skew
  {
    if msg.now.Some? then msg.now.value - localNow else skew
  }

  /** `ws.onopen`: both buttons disabled. */
  function OnOpen(v: View): (v': View)
    ensures !v'.betEnabled && !v'.cashEnabled
    ensures v' == v.(betEnabled := false, cashEnabled := false)
  {
    v.(betEnabled := false, cashEnabled := false)
  }

  /** `ws.onmessage`. The skew is updated first. Only a message of type "phase" does anything
      else: "preparing" enables betting only and (given a truthy start and end) restarts the
      countdown; "running" enables cashing only, stops the countdown and resets `last` to
      running at 1x; "crashed" disables both, stops the countdown, takes `crashX` as the last
      crash only when it is a number, and puts `last` back to preparing at 1x. The "tick" test
      sits inside the "phase" branch, so a tick never reaches `last`. */
  function OnMessage(v: View, msg: Msg, localNow: real): (v': View)
    ensures v'.skew == UpdateSkew(v.skew, msg, localNow)
    ensures msg.kind != "phase" ==> v' == v.(skew := v'.skew)
    ensures msg.kind == "phase" && msg.phase == Some("preparing") ==>
      && v'.betEnabled && !v'.cashEnabled
      && v'.last == v.last && v'.lastCrash == v.lastCrash
      && v'.timer == (if JsNum.Truthy(msg.startedAt) && JsNum.Truthy(msg.endsAt)
                      then Some(Countdown(msg.startedAt.value, msg.endsAt.value)) else v.timer)
    ensures msg.kind == "phase" && msg.phase == Some("running") ==>
      && !v'.betEnabled && v'.cashEnabled
      && v'.last == Last(1.0, Running) && v'.timer.None? && v'.lastCrash == v.lastCrash
    ensures msg.kind == "phase" && msg.phase == Some("crashed") ==>
      && !v'.betEnabled && !v'.cashEnabled
      && v'.last == Last(1.0, Preparing) && v'.timer.None?
      && v'.lastCrash == (if msg.crashX.Some? then msg.crashX else v.lastCrash)
    ensures msg.phase !in {Some("preparing"), Some("running"), Some("crashed")} ==> v' == v.(skew := v'.skew)
  {
    var v0 := v.(skew := UpdateSkew(v.skew, msg, localNow));
    if msg.kind == "phase" then
      if msg.phase == Some("preparing") then
        var timer := if JsNum.Truthy(msg.startedAt) && JsNum.Truthy(msg.endsAt)
                     then Some(Countdown(msg.startedAt.value, msg.endsAt.value)) else v0.timer;
        v0.(betEnabled := true, cashEnabled := false, timer := timer)
      else if msg.phase == Some("running") then
        v0.(timer := None, betEnabled := false, cashEnabled := true, last := v0.last.(phase := Running, x := 1.0))
      else if msg.phase == Some("crashed") then
        var lastCrash := if msg.crashX.Some? then msg.crashX else v0.lastCrash;
        v0.(betEnabled := false, cashEnabled := false, lastCrash := lastCrash, timer := None,
            last := v0.last.(phase := Preparing, x := 1.0))
      else v0
    else v0
  }

  /** A tick, whatever its value, leaves `last` untouched. */
  lemma TickNeverReachesLast(v: View, msg: Msg, localNow: real)
    requires msg.kind == "tick"
    ensures OnMessage(v, msg, localNow).last == v.last
  {
  }

  /** The other way to balance the braces of `ws.onmessage`: with the missing brace where the
      indentation puts it, the "tick" test is a sibling of the "phase" branch, and a tick that
      carries a number moves `last` to running at that value. Everything else is as in
      `OnMessage`. */
  function OnMessageIndented(v: View, msg: Msg, localNow: real): (v': View)
    ensures msg.kind != "tick" || msg.x.None? ==> v' == OnMessage(v, msg, localNow)
    ensures msg.kind == "tick" && msg.x.Some? ==>
      && v'.last == Last(msg.x.value, Running)
      && v' == OnMessage(v, msg, localNow).(last := v'.last)
  {
    var v1 := OnMessage(v, msg, localNow);
    if msg.kind == "tick" && msg.x.Some? then v1.(last := Last(msg.x.value, Running)) else v1
  }

  /** The two readings part on the first tick: at 2x the indented one lifts the rocket to 35%
      of its range, while in `OnMessage` it stays on the floor. */
  lemma ReadingsDifferOnTick(v: View, localNow: real)
    requires Inv(v)
    ensures
      var tick := Msg("tick", None, None, None, None, None, Some(2.0));
      && HeightPct(OnMessage(v, tick, localNow).last.x) == 0.0
      && HeightPct(OnMessageIndented(v, tick, localNow).last.x) == Early
  {
  }

  /** `Math.round(y)` for y >= 0. */
  function RoundHalfUp(y: real): int {
    (y + 0.5).Floor
  }

  /** What one 50 ms countdown frame computes. */
  datatype Frame = Frame(total: real, leftMs: real, leftSeconds: real, pct: real, stop: bool)

  /** One countdown frame at server time localNow + skew: the window is at least 500 ms, the
      time left is never negative and is 0 exactly when the end has passed, which is also
      exactly when the interval stops; the displayed seconds are within 50 ms of the time left;
      the progress bar is the elapsed share of the window in percent, clamped to [0, 100]. */
  function CountdownFrame(c: Countdown, localNow: real, skew: real): (f: Frame)
    ensures f.total >= 500.0 && f.total >= c.endsAt - c.startedAt
    ensures f.leftMs >= 0.0 && f.leftMs >= c.endsAt - (localNow + skew)
    ensures f.leftMs == 0.0 <==> localNow + skew >= c.endsAt
    ensures f.stop <==> localNow + skew >= c.endsAt
    ensures f.leftMs > 0.0 ==> f.leftMs == c.endsAt - (localNow + skew)
    ensures f.leftSeconds >= 0.0
    ensures -50.0 <= f.leftSeconds * 1000.0 - f.leftMs <= 50.0
    ensures 0.0 <= f.pct <= 100.0
    ensures f.total == 500.0 || f.total == c.endsAt - c.startedAt
    ensures localNow + skew <= c.startedAt ==> f.pct == 0.0
    ensures localNow + skew >= c.startedAt + f.total ==> f.pct == 100.0
    ensures c.startedAt <= localNow + skew <= c.startedAt + f.total ==>
      f.pct * f.total == 100.0 * (localNow + skew - c.startedAt)
  {
    var now := localNow + skew;
    var total := if 500.0 >= c.endsAt - c.startedAt then 500.0 else c.endsAt - c.startedAt;
    var leftMs := if 0.0 >= c.endsAt - now then 0.0 else c.endsAt - now;
    var left := RoundHalfUp(leftMs / 100.0) as real / 10.0;
    var ratio := (now - c.startedAt) / total;
    var clamped := if 0.0 >= ratio then 0.0 else if ratio <= 1.0 then ratio else 1.0;
    Frame(total, leftMs, left, clamped * 100.0, now >= c.endsAt)
  }

  /** Dividing by a positive number keeps the order. */
  lemma DivideByPositive(a: real, b: real, d: real)
    requires d > 0.0 && a <= b
    ensures a / d <= b / d
  {
    assert b / d - a / d == (b - a) / d;
    assert (b - a) / d >= 0.0;
  }

  /** As server time passes, the bar never moves back and the time left never grows. */
  lemma CountdownProgresses(c: Countdown, t1: real, t2: real, skew: real)
    requires t1 <= t2
    ensures CountdownFrame(c, t1, skew).pct <= CountdownFrame(c, t2, skew).pct
    ensures CountdownFrame(c, t2, skew).leftMs <= CountdownFrame(c, t1, skew).leftMs
  {
    var total := CountdownFrame(c, t1, skew).total;
    assert total == CountdownFrame(c, t2, skew).total;
    DivideByPositive(t1 + skew - c.startedAt, t2 + skew - c.startedAt, total);
  }

  /** The interval callback: once the end is reached the interval is cleared, and with no
      interval nothing happens. */
  function OnCountdownTimer(v: View, localNow: real): (v': View)
    ensures v.timer.None? ==> v' == v
    ensures v.timer.Some? ==> (v'.timer.None? <==> localNow + v.skew >= v.timer.value.endsAt)
    ensures v' == v.(timer := v'.timer)
  {
    match v.timer
    case None => v
    case Some(c) => if CountdownFrame(c, localNow, v.skew).stop then v.(timer := None) else v
  }

  /** Everything that can happen to the client view. */
  datatype Event = Opened | Received(msg: Msg, localNow: real) | TimerFired(at: real)

  function Step(v: View, e: Event): View {
    match e
    case Opened => OnOpen(v)
    case Received(msg, t) => OnMessage(v, msg, t)
    case TimerFired(t) => OnCountdownTimer(v, t)
  }

  function Run(v: View, es: seq<Event>): View
    decreases |es|
  {
    if es == [] then v else Run(Step(v, es[0]), es[1..])
  }

  /** What holds in every reachable view: `last.x` is 1 (nothing ever writes another value), and
      the two buttons are never enabled together. */
  ghost predicate Inv(v: View) {
    v.last.x == 1.0 && !(v.betEnabled && v.cashEnabled)
  }

  lemma {:induction false} RunInv(v: View, es: seq<Event>)
    requires Inv(v)
    ensures Inv(Run(v, es))
    decreases |es|
  {
    if es != [] {
      var v1 := Step(v, es[0]);
      assert Inv(v1);
      RunInv(v1, es[1..]);
    }
  }

  /** Consequently the running animation always draws the rocket on the floor. */
  lemma RocketStaysOnFloor(es: seq<Event>)
    ensures HeightPct(Run(Initial, es).last.x) == 0.0
  {
    RunInv(Initial, es);
  }

  /** The skew an event sequence leaves, read off its last message that carries a numeric `now`:
      server time minus the local time it was received at, or the starting skew when no message
      carried one. */
  function LatestSkew(skew0: real, es: seq<Event>): real
    decreases |es|
  {
    if es == [] then skew0
    else
      var e := es[|es| - 1];
      if e.Received? && e.msg.now.Some? then e.msg.now.value - e.localNow
      else LatestSkew(skew0, es[..|es| - 1])
  }

  /** Running one more event is a step from where the earlier events left the view. */
  lemma {:induction false} RunSnoc(v: View, es: seq<Event>, e: Event)
    ensures Run(v, es + [e]) == Step(Run(v, es), e)
    decreases |es|
  {
    if es == [] {
      assert es + [e] == [e];
    } else {
      assert (es + [e])[1..] == es[1..] + [e];
      RunSnoc(Step(v, es[0]), es[1..], e);
    }
  }

  /** The skew never blends across messages: after any events it is exactly the one the latest
      timestamped message implies. */
  lemma {:induction false} SkewFollowsLatestNow(v: View, es: seq<Event>)
    ensures Run(v, es).skew == LatestSkew(v.skew, es)
    decreases |es|
  {
    if es != [] {
      var init := es[..|es| - 1];
      var e := es[|es| - 1];
      assert es == init + [e];
      RunSnoc(v, init, e);
      SkewFollowsLatestNow(v, init);
    }
  }

  /** A server `now` of 100000 read at local time 95000 gives a skew of +5000, and countdown
      frames then run on local time + 5000 until the next timestamped message. */
  lemma SkewExample(v: View, c: Countdown)
    ensures UpdateSkew(v.skew, Msg("heartbeat", None, Some(100000.0), None, None, None, None), 95000.0) == 5000.0
    ensures CountdownFrame(c, 96000.0, 5000.0) == CountdownFrame(c, 101000.0, 0.0)
  {
  }
}
